=== FILE: README.md ===
# Sudoku engine model

A Dafny model of the puzzle engine of an Android Sudoku app. The model
covers four parts:

- **The rules** (`SudokuRules`): the candidate test `isValidPlacement`, the
  per-cell duplicate test `hasConflict` and the whole-board check
  `isComplete`.
- **The generator** (`SudokuGenerator`): the randomised backtracking fill
  `fillBoard` / `generateCompleteSudoku`, and `generateNewGame`, which blanks
  `difficulty` cells of the filled grid.
- **The game-state engine** (`SudokuGame`, the `SudokuGame` object of the
  app): the current game snapshot and the intents that replace it with a new
  snapshot. These are moving the selection, `setValue` / `clearValue` (with
  note pruning, error marking and completion), `toggleNote`, starting,
  continuing and manually loading a game, and the pause/resume timer.
- **The completion statistics** (`Statistics`): one counter per difficulty in
  a key-value store.

The data model is in `SudokuModels`: cells, boards and the game-state
snapshot with the data classes' defaults. `Wrappers` holds `Option`.

Conventions:

- A board is `seq<seq<Cell>>`. The rules work on its value grid
  `seq<seq<int>>`, as the source's `intBoard` does.
- Each intent is a pure function from one `Session` to the next. A
  `Session` is the current game (if any) plus the timer fields.
- Randomness is passed in. `draws(k)` is the digit order of the k-th
  `(1..9).shuffled()` call. `samples` is the stream of positions drawn by
  `Random.nextInt(9)` during removal.
- The clock is passed in as `now` (milliseconds).
- Kotlin `Int` arithmetic wraps around (`WrapInt`). `Long` division
  truncates toward zero (`TruncDiv`).

Behaviour of the source that the model keeps as written:

- `isValidPlacement` scans the target cell too. On a filled cell it is
  therefore false for that cell's own digit. The model states
  conflict-freedom of filled boards (`HasConflict`, `Consistent`), not
  "every filled cell satisfies `isValidPlacement`".
- `setValue` and `toggleNote` still apply after the puzzle is complete.
- No intent ever changes `mistakes`.
- Completing a puzzle deletes the manual save as well as the auto-save.
  `clearSavedGame` clears the whole preferences file, and that file holds
  the manual-save keys too. Persistence itself is left out of the model
  (see below).
- `moveSelection` adds in 32-bit arithmetic. A delta that overflows wraps to
  a negative coordinate, which is clamped to 0.

## Model

| member | source | states |
|---|---|---|
| SudokuModels.NewCell | app/src/main/java/com/brucewang/sudokuds/sudoku/SudokuModels.kt:6-13 | a new cell has no error flag and no notes, and keeps the given position, value and initial flag |
| SudokuModels.NewGameState | app/src/main/java/com/brucewang/sudokuds/sudoku/SudokuModels.kt:18-27 | a new snapshot selects (0,0), has time 0, is not complete, has no mistakes, no highlight and difficulty 40 |
| SudokuModels.WrapInt | app/src/main/java/com/brucewang/sudokuds/sudoku/SudokuGameStateManager.kt:96-97 | a Kotlin `Int` result is in the `Int` range, equals the exact value when that fits, and differs from it by a multiple of 2^32 |
| SudokuModels.Values | app/src/main/java/com/brucewang/sudokuds/sudoku/SudokuGameManager.kt:146 | the value grid is 9x9 and holds each cell's value at its position |
| SudokuRules.IsValidPlacement | app/src/main/java/com/brucewang/sudokuds/sudoku/SudokuGameManager.kt:82-103 | the digit is accepted exactly when no cell of the row, the column or the 3x3 box (the target cell included) holds it |
| SudokuRules.HasConflict | app/src/main/java/com/brucewang/sudokuds/sudoku/SudokuGameManager.kt:142-174 | an empty cell never conflicts; a cell conflicts exactly when it is filled and another cell of its row, column or box holds the same value |
| SudokuRules.ConflictScan | app/src/main/java/com/brucewang/sudokuds/sudoku/SudokuGameManager.kt:148-171 | the value counting more than once in the row, the column or the box is the same as a duplicate in another peer cell |
| SudokuRules.CountTwice | app/src/main/java/com/brucewang/sudokuds/sudoku/SudokuGameManager.kt:149-153 | a value seen at one index counts more than once exactly when it also occurs at another index |
| SudokuRules.IsComplete | app/src/main/java/com/brucewang/sudokuds/sudoku/SudokuGameManager.kt:108-137 | a board with an empty cell is never complete; a board is complete exactly when it is full and every row, column and box holds nine different values |
| SudokuRules.ElemSetSize | app/src/main/java/com/brucewang/sudokuds/sudoku/SudokuGameManager.kt:119-133 | the set of a sequence's elements is as large as the sequence exactly when no element repeats, which is the meaning of the `toSet().size != 9` tests |
| SudokuRules.ConsistentIffNoConflict | app/src/main/java/com/brucewang/sudokuds/sudoku/SudokuGameManager.kt:142-174 | no pair of peer cells shares a nonzero value exactly when no cell reports a conflict |
| SudokuRules.CompleteIffConsistent | app/src/main/java/com/brucewang/sudokuds/sudoku/SudokuGameManager.kt:108-137 | complete is the same as full and free of pairs of peers sharing a value |
| SudokuRules.CompleteIffNoConflict | app/src/main/java/com/brucewang/sudokuds/sudoku/SudokuGameManager.kt:108-174 | on any board, `isComplete` holds exactly when every cell is filled and `hasConflict` is false everywhere |
| SudokuRules.CompletePairDiffers | app/src/main/java/com/brucewang/sudokuds/sudoku/SudokuGameManager.kt:115-134 | two different cells of one unit of a complete board hold different values |
| SudokuRules.CompleteUnitsArePermutations | app/src/main/java/com/brucewang/sudokuds/sudoku/SudokuGameManager.kt:115-136 | on a complete board of digits 1-9, every row, column and box holds exactly the digits 1-9 |
| SudokuGenerator.FirstZero | app/src/main/java/com/brucewang/sudokuds/sudoku/SudokuGameManager.kt:59-61 | the fill's scan finds nothing exactly when the grid is full, and otherwise stops at an empty cell with no empty cell before it in row-major order |
| SudokuGenerator.PlacePreservesConsistent | app/src/main/java/com/brucewang/sudokuds/sudoku/SudokuGameManager.kt:64-65 | writing a digit that passes the candidate test keeps a conflict-free grid conflict-free |
| SudokuGenerator.FillBoard | app/src/main/java/com/brucewang/sudokuds/sudoku/SudokuGameManager.kt:58-77 | on success no cell is empty and a conflict-free start gives a complete grid; on failure the grid is unchanged; filled cells are kept and new ones hold digits 1-9; its outcome, grid and next shuffle index are exactly those of `Fill`; terminates because each recursive call has fewer empty cells |
| SudokuGenerator.Fill | app/src/main/java/com/brucewang/sudokuds/sudoku/SudokuGameManager.kt:58-77 | the fill as a value: on success the grid has no empty cell and a conflict-free start gives a complete grid; on failure it is the input grid; filled cells are kept and new ones hold digits 1-9; the shuffle index never goes back |
| SudokuGenerator.FillTry | app/src/main/java/com/brucewang/sudokuds/sudoku/SudokuGameManager.kt:62-72 | the digit loop at one empty cell: a success leaves no empty cell, completes a conflict-free grid and keeps the filled cells; when every digit fails the grid comes back unchanged |
| SudokuGenerator.TryDigits | app/src/main/java/com/brucewang/sudokuds/sudoku/SudokuGameManager.kt:62-72 | the digit loop with backtracking computes exactly what `FillTry` defines from the first digit on |
| SudokuGenerator.PlaceUndo | app/src/main/java/com/brucewang/sudokuds/sudoku/SudokuGameManager.kt:65-69 | writing 0 back over the digit just placed restores the grid |
| SudokuGenerator.GenerateCompleteSudoku | app/src/main/java/com/brucewang/sudokuds/sudoku/SudokuGameManager.kt:49-53 | a successful fill of the empty grid is a complete grid of digits 1-9; a failed one leaves the empty grid; the flag and grid are those of `Fill` from the empty grid and shuffle 0 |
| SudokuGenerator.RemovableFull | app/src/main/java/com/brucewang/sudokuds/sudoku/SudokuGameManager.kt:23-31 | on a full grid every sampled position is one the removal loop can blank |
| SudokuGenerator.RemoveCells | app/src/main/java/com/brucewang/sudokuds/sudoku/SudokuGameManager.kt:19-31 | exactly `difficulty` more cells are empty afterwards (none for a negative difficulty); empty cells stay empty; every cell is blank or keeps its solution value |
| SudokuGenerator.RemoveTurn | app/src/main/java/com/brucewang/sudokuds/sudoku/SudokuGameManager.kt:24-30 | one draw blanks the sampled cell if it is filled and counts it, or skips it, keeping the removal invariant |
| SudokuGenerator.ToCells | app/src/main/java/com/brucewang/sudokuds/sudoku/SudokuGameManager.kt:34-43 | the cells carry their own position and the grid's value, are initial exactly when filled, and have no error flag and no notes |
| SudokuGenerator.GenerateNewGame | app/src/main/java/com/brucewang/sudokuds/sudoku/SudokuGameManager.kt:14-44 | there is no puzzle exactly when the fill fails and some cell is to be blanked; the solution is the grid `Fill` leaves; when the fill succeeds it is complete and the puzzle has exactly `difficulty` empty cells; every cell is blank or the solution's digit, initial exactly when filled, unmarked and without notes |
| SudokuGenerator.CutPuzzle | app/src/main/java/com/brucewang/sudokuds/sudoku/SudokuGameManager.kt:19-43 | blanking cells of a complete grid leaves exactly `difficulty` empty cells; every cell is blank or the grid's digit, initial exactly when filled, unmarked and without notes |
| SudokuGame.MoveSelection | app/src/main/java/com/brucewang/sudokuds/sudoku/SudokuGameStateManager.kt:94-115 | no game means no change; each coordinate is the clamped sum (0 when the `Int` sum overflows upward); the highlight follows a filled destination and stays on an empty one; board, completion, mistakes, time and difficulty unchanged |
| SudokuGame.MoveSelectionTo | app/src/main/java/com/brucewang/sudokuds/sudoku/SudokuGameStateManager.kt:120-141 | no game means no change; the selection is the clamped target; same highlight rule; everything else unchanged |
| SudokuGame.MoveIsMoveTo | app/src/main/java/com/brucewang/sudokuds/sudoku/SudokuGameStateManager.kt:94-141 | without overflow, a relative move equals the tap on the cell it lands on |
| SudokuGame.MoveToIdempotent | app/src/main/java/com/brucewang/sudokuds/sudoku/SudokuGameStateManager.kt:120-141 | tapping the same cell twice equals tapping it once |
| SudokuGame.MoveStopsAtEdge | app/src/main/java/com/brucewang/sudokuds/sudoku/SudokuGameStateManager.kt:96 | moving down from the last row stays on it, and an overflowing delta lands on row 0 |
| SudokuGame.ClearInvalidNotes | app/src/main/java/com/brucewang/sudokuds/sudoku/SudokuGameStateManager.kt:249-269 | exactly the cells sharing a row, column or box lose the value from their notes; every other note and field is kept |
| SudokuGame.MarkErrors | app/src/main/java/com/brucewang/sudokuds/sudoku/SudokuGameStateManager.kt:172-176 | every error flag equals `hasConflict` on the board; values, notes, positions and initial flags are kept |
| SudokuGame.Prepared | app/src/main/java/com/brucewang/sudokuds/sudoku/SudokuGameStateManager.kt:156-169 | the selected cell takes the value and loses its notes; a nonzero value leaves the notes of exactly its peers; no other value changes |
| SudokuGame.WrittenCells | app/src/main/java/com/brucewang/sudokuds/sudoku/SudokuGameStateManager.kt:156-176 | after the write the cell holds the value with no notes, every error flag is `hasConflict` of the new board, and other cells keep their values and lose the value from their notes only when they are peers |
| SudokuGame.SetValue | app/src/main/java/com/brucewang/sudokuds/sudoku/SudokuGameStateManager.kt:146-201 | no game or an initial cell means no change; otherwise the board is rewritten, completion is recomputed from it, the highlight becomes the value, selection and counters are kept, and a completed board pauses the clock |
| SudokuGame.ClearValue | app/src/main/java/com/brucewang/sudokuds/sudoku/SudokuGameStateManager.kt:274-276 | it is `setValue(0)`: on an initial cell nothing changes; clearing an editable cell empties it and its notes, removes the highlight, leaves the game incomplete, keeps the selection, mistakes, difficulty and time, keeps every other cell's value and notes, keeps every cell's position and clue flag, and recomputes every error flag with `hasConflict` |
| SudokuGame.ToggleNote | app/src/main/java/com/brucewang/sudokuds/sudoku/SudokuGameStateManager.kt:206-244 | nothing changes unless the cell is editable, empty and the digit a legal candidate; then exactly that digit flips in that cell's notes and nothing else changes |
| SudokuGame.ToggleNoteInvolution | app/src/main/java/com/brucewang/sudokuds/sudoku/SudokuGameStateManager.kt:225-241 | toggling the same note twice restores the session |
| SudokuGame.ToggleNoteKeepsValues | app/src/main/java/com/brucewang/sudokuds/sudoku/SudokuGameStateManager.kt:231-241 | toggling a note leaves every digit on the board as it was |
| SudokuGame.SetValueKeepsNotesSound | app/src/main/java/com/brucewang/sudokuds/sudoku/SudokuGameStateManager.kt:156-169 | if notes sit only on empty cells and are legal candidates there, that still holds after `setValue` |
| SudokuGame.NotesLegalAfterWrite | app/src/main/java/com/brucewang/sudokuds/sudoku/SudokuGameStateManager.kt:249-269 | pruning the written value from the peers' notes is what keeps every remaining note a legal candidate |
| SudokuGame.ToggleNoteKeepsNotesSound | app/src/main/java/com/brucewang/sudokuds/sudoku/SudokuGameStateManager.kt:213-222 | since only legal candidates on empty cells are toggled, the note invariant is kept |
| SudokuGame.SubgridNoConflict | app/src/main/java/com/brucewang/sudokuds/sudoku/SudokuGameManager.kt:23-31 | a grid cut out of a conflict-free solution has no conflicting cell |
| SudokuGame.GeneratedBoardSound | app/src/main/java/com/brucewang/sudokuds/sudoku/SudokuGameManager.kt:34-43 | a puzzle cut from a complete solution, unmarked and without notes, has accurate error flags and sound notes |
| SudokuGame.SetValueKeepsSound | app/src/main/java/com/brucewang/sudokuds/sudoku/SudokuGameStateManager.kt:146-185 | `setValue` keeps error flags accurate and notes sound |
| SudokuGame.ClearValueKeepsSound | app/src/main/java/com/brucewang/sudokuds/sudoku/SudokuGameStateManager.kt:274-276 | `clearValue` keeps error flags accurate and notes sound |
| SudokuGame.ToggleNoteKeepsSound | app/src/main/java/com/brucewang/sudokuds/sudoku/SudokuGameStateManager.kt:206-244 | `toggleNote` keeps error flags accurate and notes sound |
| SudokuGame.MovesAndTicksKeepSound | app/src/main/java/com/brucewang/sudokuds/sudoku/SudokuGameStateManager.kt:94-141 | moving the selection, by a step or to a cell, keeps error flags accurate and notes sound; so do the timer steps `updateElapsedTime`, `pauseTimer` and `resumeTimer` (lines 281-320) |
| SudokuGame.IntentsKeepCounters | app/src/main/java/com/brucewang/sudokuds/sudoku/SudokuGameStateManager.kt:94-309 | no move, write, clear, note toggle, pause or tick changes `mistakes` or `emptyCellsCount` |
| SudokuGame.StartNewGame | app/src/main/java/com/brucewang/sudokuds/sudoku/SudokuGameStateManager.kt:39-57 | the new game has the given board, selection (0,0), time 0, not complete, no mistakes, no highlight and the given difficulty; the clock runs from `now` with no accumulated time |
| SudokuGame.StartGeneratedGame | app/src/main/java/com/brucewang/sudokuds/sudoku/SudokuGameStateManager.kt:39-57 | a game started on a generated puzzle is sound (accurate error flags and notes); when the fill succeeds it has exactly as many blanks as the difficulty it records; with no puzzle the session is unchanged |
| SudokuGame.FreshGameClock | app/src/main/java/com/brucewang/sudokuds/sudoku/SudokuGameStateManager.kt:51-53 | a tick after starting reads the whole seconds since the start |
| SudokuGame.PauseTimer | app/src/main/java/com/brucewang/sudokuds/sudoku/SudokuGameStateManager.kt:297-309 | a second pause is ignored; otherwise the running seconds are added to the total and stamped on the game, and the clock is paused even without a game |
| SudokuGame.ResumeTimer | app/src/main/java/com/brucewang/sudokuds/sudoku/SudokuGameStateManager.kt:314-320 | resuming a running clock is ignored; otherwise it restarts from `now` with the game and total kept |
| SudokuGame.UpdateElapsedTime | app/src/main/java/com/brucewang/sudokuds/sudoku/SudokuGameStateManager.kt:281-292 | a paused clock or no game means no change; otherwise the game's time is the total plus the running seconds |
| SudokuGame.PauseIdempotent | app/src/main/java/com/brucewang/sudokuds/sudoku/SudokuGameStateManager.kt:298 | pausing twice equals pausing once, whatever the second clock reading |
| SudokuGame.ResumeIdempotent | app/src/main/java/com/brucewang/sudokuds/sudoku/SudokuGameStateManager.kt:315 | resuming twice equals resuming once, whatever the second clock reading |
| SudokuGame.PausedTickIsNoOp | app/src/main/java/com/brucewang/sudokuds/sudoku/SudokuGameStateManager.kt:283 | while paused, ticks change nothing |
| SudokuGame.PauseResumeKeepsTime | app/src/main/java/com/brucewang/sudokuds/sudoku/SudokuGameStateManager.kt:297-320 | pausing and resuming keeps the game's time at its value at the pause, and an immediate tick agrees |
| SudokuGame.ContinueGame | app/src/main/java/com/brucewang/sudokuds/sudoku/SudokuGameStateManager.kt:62-74 | with nothing saved the session is unchanged; otherwise the saved game is current, its time is the total, and the clock runs from `now` |
| SudokuGame.ManualSaveState | app/src/main/java/com/brucewang/sudokuds/sudoku/SudokuStateStorage.kt:181-199 | a manually loaded game keeps every stored cell (position, value, clue flag and notes) except its error flag, which comes from `hasConflict`; completion comes from `isComplete`, time is 0, and the stored selection and counters are kept |
| SudokuGame.AutoSaveState | app/src/main/java/com/brucewang/sudokuds/sudoku/SudokuStateStorage.kt:88-106 | a game loaded from the auto-save slot keeps every stored cell except its error flag, so its error flags are accurate; completion comes from `isComplete`, and the stored time, selection and counters are kept |
| SudokuGame.LoadManualSave | app/src/main/java/com/brucewang/sudokuds/sudoku/SudokuGameStateManager.kt:345-358 | it reports success exactly when a game was loaded; the loaded game becomes current with the current game's time (0 without one); the timer fields are kept |
| Statistics.GetInt | app/src/main/java/com/brucewang/sudokuds/StatisticsManager.kt:15-34 | a stored counter reads as its stored value, an absent one reads 0, and either is an `Int` |
| Statistics.GetTotalCompleted | app/src/main/java/com/brucewang/sudokuds/StatisticsManager.kt:39-41 | the total is the sum of the three counters whenever that sum fits an `Int`, and otherwise that sum wrapped to 32 bits |
| Statistics.WrapSum | app/src/main/java/com/brucewang/sudokuds/StatisticsManager.kt:40 | wrapping after each of the two additions equals wrapping the whole sum once |
| Statistics.KeyFor | app/src/main/java/com/brucewang/sudokuds/StatisticsManager.kt:48-53 | only the difficulties 30, 40 and 50 have a counter |
| Statistics.RecordCompletion | app/src/main/java/com/brucewang/sudokuds/StatisticsManager.kt:46-58 | another difficulty leaves the store unchanged; 30, 40 or 50 increments exactly its own counter (`Int.MAX_VALUE` wraps to `Int.MIN_VALUE`) and keeps every other key |
| Statistics.ResetStatistics | app/src/main/java/com/brucewang/sudokuds/StatisticsManager.kt:63-68 | after a reset every counter and the total read 0 |
| Statistics.GetStatistics | app/src/main/java/com/brucewang/sudokuds/StatisticsManager.kt:73-90 | the snapshot's counters agree with the getters; its total is the `Int` that `getTotalCompleted` returns, equal to the counters' sum when that fits and congruent to it modulo 2^32 otherwise |
| Statistics.RecordRaisesTotal | app/src/main/java/com/brucewang/sudokuds/StatisticsManager.kt:39-58 | with non-negative counters whose sum fits, recording 30, 40 or 50 raises the total by one, another difficulty keeps it, and counters stay non-negative |
| Statistics.RecordAfterReset | app/src/main/java/com/brucewang/sudokuds/StatisticsManager.kt:46-90 | one completion recorded after a reset shows as 1 in exactly its own counter and in the total |
| Statistics.RecordCommutes | app/src/main/java/com/brucewang/sudokuds/StatisticsManager.kt:46-58 | recording two completions gives the same store in either order |

## Left out

- The Compose UI, gamepad input, activity lifecycle and language handling.
  They only render or forward to the intents modelled here.
- Persistence. `autoSave`, `manualSave`, `hasSavedGame`, `hasManualSave` and
  the Gson/SharedPreferences serialisation are not modelled.
  `ContinueGame` and `LoadManualSave` take the decoded slot content as an
  `Option` argument. A slot that fails to decode is `None`. `ContinueGame`
  accepts any state; the states the auto-save loader produces are those of
  `AutoSaveState`. The start time the loader also returns is unused by
  `continueGame`.
- The default argument `difficulty: Int = 40` of `startNewGame` and
  `generateNewGame`. A caller that omits the difficulty is
  `StartNewGame(s, DEFAULT_EMPTY_CELLS, …)` and
  `GenerateNewGame(DEFAULT_EMPTY_CELLS, …)`.
- `ManualSaveState` is stated only for a decoded 9x9 board; boards of other
  shapes are not represented. In the source some of them make the loader
  throw and return `null`, but not all. A board with a tenth row of zeros
  loads: `hasConflict` returns at once for a 0, and `isComplete` returns
  false on the first 0 it sees. The load then yields a game with a
  ten-row board.
- The side effects inside `setValue`. On completion the source pauses the
  timer, which is modelled. It then calls `clearSavedGame` and
  `recordCompletion`; those two are left to the caller. The statistics
  themselves are modelled in `Statistics`.
- `System.currentTimeMillis` is the `now` parameter. `formatTime` is string
  formatting only.
- The timer's `Long` arithmetic is unbounded in the model. Overflow of a
  64-bit millisecond clock is not modelled.
- `Random.nextInt` and `shuffled()` are oracle arguments.
  - The model does not prove that the fill always succeeds from an empty
    grid. The outcome is pinned to the reference definition `Fill`.
  - If the fill fails with a positive difficulty, the source's removal loop
    finds nothing to blank and never ends. `GenerateNewGame` returns `None`
    for exactly that run.
- SudokuGenerator.GenerateNewGame: that the fill of the empty grid succeeds
  for every shuffle stream is not proved, so the puzzle's blank count is
  promised only when `Fill(EmptyGrid(), draws, 0)` succeeds. A proof would
  need a search argument that the backtracking always reaches a solution.
- SudokuGenerator.GenerateNewGame: the removal loop is modelled only for
  sample streams that offer at least `difficulty` distinct positions. The
  source loops forever on a stream that does not. This also excludes a
  difficulty above 81.
- SudokuGenerator.RemoveCells: same requirement on the sample stream as
  `GenerateNewGame`, for the same reason.
- `elapsedTime`, `sessionStartTime` and `totalElapsedSeconds` are `Long` in
  the source. Only `Int` wrap-around is modelled, where it can be reached:
  selection moves and the statistics counters.

=== FILE: game_state.dfy ===
/**
 * The game-state engine: the single current game of a session and the
 * player intents that replace it with a new snapshot (move the selection,
 * set or clear a value, toggle a note, start a game), together with the
 * timer bookkeeping. Clock readings are passed in as `now` (milliseconds);
 * saving, statistics and the UI are left to the caller.
 */
module SudokuGame {
  import opened Wrappers
  import opened SudokuModels
  import opened SudokuRules
  import opened SudokuGenerator

  /**
   * A session: the current game, if any, plus the timer state. `sessionStartTime`
   * is in milliseconds, `totalElapsedSeconds` in seconds.
   */
  datatype Session = Session(
    game: Option<GameState>,
    sessionStartTime: int,
    totalElapsedSeconds: int,
    isTimerPaused: bool)

  /** The current game, if there is one, can be indexed at its selection. */
  predicate ValidSession(s: Session) {
    s.game.Some? ==> ValidGame(s.game.value)
  }

  // ---------------------------------------------------------------------------
  // Moving the selection
  // ---------------------------------------------------------------------------

  /** Kotlin's `coerceIn(0, 8)`. */
  function Clamp(x: int): (r: int)
    ensures InRange(r)
    ensures InRange(x) ==> r == x
    ensures x < 0 ==> r == 0
    ensures x >= SIZE ==> r == SIZE - 1
  {
    if x < 0 then 0 else if x > SIZE - 1 then SIZE - 1 else x
  }

  /**
   * Selects (`row`, `col`), already clamped. The highlight follows the new
   * cell's digit; an empty cell keeps the previous highlight.
   */
  function Select(st: GameState, row: int, col: int): (st': GameState)
    requires IsBoard(st.board) && InRange(row) && InRange(col)
    ensures ValidGame(st')
    ensures st'.selectedRow == row && st'.selectedCol == col
    ensures st.board[row][col].value != 0 ==> st'.highlightedNumber == st.board[row][col].value
    ensures st.board[row][col].value == 0 ==> st'.highlightedNumber == st.highlightedNumber
    ensures st'.board == st.board && st'.isComplete == st.isComplete && st'.mistakes == st.mistakes
    ensures st'.elapsedTime == st.elapsedTime && st'.emptyCellsCount == st.emptyCellsCount
  {
    var cell := st.board[row][col];
    var highlight := if cell.value != 0 then cell.value else st.highlightedNumber;
    st.(selectedRow := row, selectedCol := col, highlightedNumber := highlight)
  }

  /**
   * Moves the selection by (`deltaRow`, `deltaCol`), each coordinate clamped
   * to 0-8 on its own. The sum is a Kotlin `Int` addition, so a delta near
   * `Int.MAX_VALUE` wraps round to a negative row and is clamped to 0.
   */
  function MoveSelection(s: Session, deltaRow: int, deltaCol: int): (s': Session)
    requires ValidSession(s) && IsInt(deltaRow) && IsInt(deltaCol)
    ensures ValidSession(s')
    ensures s.game.None? ==> s' == s
    ensures s'.game.Some? == s.game.Some?
    ensures s'.sessionStartTime == s.sessionStartTime && s'.totalElapsedSeconds == s.totalElapsedSeconds
    ensures s'.isTimerPaused == s.isTimerPaused
    ensures s.game.Some? ==>
      var st, st' := s.game.value, s'.game.value;
      && (IsInt(st.selectedRow + deltaRow) ==> st'.selectedRow == Clamp(st.selectedRow + deltaRow))
      && (IsInt(st.selectedCol + deltaCol) ==> st'.selectedCol == Clamp(st.selectedCol + deltaCol))
      && (st.selectedRow + deltaRow > INT_MAX ==> st'.selectedRow == 0)
      && (st.selectedCol + deltaCol > INT_MAX ==> st'.selectedCol == 0)
      && st'.board == st.board && st'.isComplete == st.isComplete && st'.mistakes == st.mistakes
      && st'.elapsedTime == st.elapsedTime && st'.emptyCellsCount == st.emptyCellsCount
      && var v := st.board[st'.selectedRow][st'.selectedCol].value;
        st'.highlightedNumber == (if v != 0 then v else st.highlightedNumber)
  {
    match s.game
    case None => s
    case Some(st) =>
      var newRow := Clamp(WrapInt(st.selectedRow + deltaRow));
      var newCol := Clamp(WrapInt(st.selectedCol + deltaCol));
      s.(game := Some(Select(st, newRow, newCol)))
  }

  /** Selects (`row`, `col`) directly (a tap); out-of-range coordinates are clamped, never rejected. */
  function MoveSelectionTo(s: Session, row: int, col: int): (s': Session)
    requires ValidSession(s)
    ensures ValidSession(s')
    ensures s.game.None? ==> s' == s
    ensures s'.game.Some? == s.game.Some?
    ensures s'.sessionStartTime == s.sessionStartTime && s'.totalElapsedSeconds == s.totalElapsedSeconds
    ensures s'.isTimerPaused == s.isTimerPaused
    ensures s.game.Some? ==>
      var st, st' := s.game.value, s'.game.value;
      && st'.selectedRow == Clamp(row) && st'.selectedCol == Clamp(col)
      && st'.board == st.board && st'.isComplete == st.isComplete && st'.mistakes == st.mistakes
      && st'.elapsedTime == st.elapsedTime && st'.emptyCellsCount == st.emptyCellsCount
      && var v := st.board[Clamp(row)][Clamp(col)].value;
        st'.highlightedNumber == (if v != 0 then v else st.highlightedNumber)
  {
    match s.game
    case None => s
    case Some(st) => s.(game := Some(Select(st, Clamp(row), Clamp(col))))
  }

  /** Without overflow, a relative move is the tap on the cell it lands on. */
  lemma MoveIsMoveTo(s: Session, deltaRow: int, deltaCol: int)
    requires ValidSession(s) && s.game.Some? && IsInt(deltaRow) && IsInt(deltaCol)
    requires IsInt(s.game.value.selectedRow + deltaRow) && IsInt(s.game.value.selectedCol + deltaCol)
    ensures MoveSelection(s, deltaRow, deltaCol)
         == MoveSelectionTo(s, s.game.value.selectedRow + deltaRow, s.game.value.selectedCol + deltaCol)
  {
  }

  /** Tapping the same cell twice is the same as tapping it once. */
  lemma MoveToIdempotent(s: Session, row: int, col: int)
    requires ValidSession(s)
    ensures MoveSelectionTo(MoveSelectionTo(s, row, col), row, col) == MoveSelectionTo(s, row, col)
  {
  }

  /** A move that would leave the board stops at the edge. */
  lemma MoveStopsAtEdge(s: Session)
    requires ValidSession(s) && s.game.Some? && s.game.value.selectedRow == SIZE - 1
    ensures MoveSelection(s, 1, 0).game.value.selectedRow == SIZE - 1
    ensures MoveSelection(s, INT_MAX, 0).game.value.selectedRow == 0
  {
  }

  // ---------------------------------------------------------------------------
  // Board rewrites used by setValue
  // ---------------------------------------------------------------------------

  /** The board with the cell at (`row`, `col`) given `value` and no notes. */
  function WithValue(b: Board, row: int, col: int, value: int): (b': Board)
    requires IsBoard(b) && InRange(row) && InRange(col)
    ensures IsBoard(b')
    ensures b'[row][col] == b[row][col].(value := value, notes := {})
    ensures forall r, c :: InRange(r) && InRange(c) && (r != row || c != col) ==> b'[r][c] == b[r][c]
  {
    seq(SIZE, r requires 0 <= r < SIZE =>
      seq(SIZE, c requires 0 <= c < SIZE =>
        if r == row && c == col then b[r][c].(value := value, notes := {}) else b[r][c]))
  }

  /**
   * Strips `value` from the notes of every cell sharing a row, column or box
   * with (`row`, `col`); every other note and every other field stays.
   */
  function ClearInvalidNotes(b: Board, row: int, col: int, value: int): (b': Board)
    requires IsBoard(b)
    ensures IsBoard(b')
    ensures forall r, c :: InRange(r) && InRange(c) ==>
      b'[r][c] == (if Peers(row, col, r, c) then b[r][c].(notes := b[r][c].notes - {value}) else b[r][c])
  {
    var b' := seq(SIZE, r requires 0 <= r < SIZE =>
      seq(SIZE, c requires 0 <= c < SIZE =>
        var cell := b[r][c];
        if Peers(row, col, r, c) && value in cell.notes then cell.(notes := cell.notes - {value}) else cell));
    assert forall r, c :: InRange(r) && InRange(c) && value !in b[r][c].notes ==> b[r][c].notes - {value} == b[r][c].notes;
    b'
  }

  /** Every cell's error flag recomputed from the board's values; nothing else changes. */
  function MarkErrors(b: Board): (b': Board)
    requires IsBoard(b)
    ensures IsBoard(b') && Values(b') == Values(b)
    ensures forall r, c :: InRange(r) && InRange(c) ==> b'[r][c].isError == HasConflict(Values(b), r, c)
    ensures forall r, c :: InRange(r) && InRange(c) ==>
      b'[r][c].row == b[r][c].row && b'[r][c].col == b[r][c].col && b'[r][c].value == b[r][c].value
      && b'[r][c].isInitial == b[r][c].isInitial && b'[r][c].notes == b[r][c].notes
  {
    var g := Values(b);
    var b' := seq(SIZE, r requires 0 <= r < SIZE =>
      seq(SIZE, c requires 0 <= c < SIZE => b[r][c].(isError := HasConflict(g, r, c))));
    assert forall r :: 0 <= r < SIZE ==> Values(b')[r] == g[r];
    b'
  }

  // ---------------------------------------------------------------------------
  // Timer
  // ---------------------------------------------------------------------------

  /** Kotlin `Long` division by a positive divisor, which truncates toward zero. */
  function TruncDiv(a: int, b: int): int
    requires b > 0
  {
    if a >= 0 then a / b else -((-a) / b)
  }

  /** Seconds of the current run of the clock, `(now - sessionStartTime) / 1000`. */
  function SessionSeconds(s: Session, now: int): int {
    TruncDiv(now - s.sessionStartTime, 1000)
  }

  /**
   * Stops the clock: folds the running seconds into the total and stamps the
   * game with it. A second pause is ignored.
   */
  function PauseTimer(s: Session, now: int): (s': Session)
    ensures s'.isTimerPaused
    ensures s.isTimerPaused ==> s' == s
    ensures s'.sessionStartTime == s.sessionStartTime
    ensures s'.game.Some? == s.game.Some?
    ensures !s.isTimerPaused && s.game.Some? ==>
      s'.totalElapsedSeconds == s.totalElapsedSeconds + SessionSeconds(s, now)
      && s'.game.value == s.game.value.(elapsedTime := s'.totalElapsedSeconds)
    ensures s.game.None? ==> s'.totalElapsedSeconds == s.totalElapsedSeconds && s'.game == s.game
  {
    if s.isTimerPaused then s
    else
      match s.game
      case None => s.(isTimerPaused := true)
      case Some(st) =>
        var total := s.totalElapsedSeconds + SessionSeconds(s, now);
        s.(game := Some(st.(elapsedTime := total)), totalElapsedSeconds := total, isTimerPaused := true)
  }

  /** Restarts the clock from `now`. Resuming a running clock is ignored. */
  function ResumeTimer(s: Session, now: int): (s': Session)
    ensures !s'.isTimerPaused
    ensures !s.isTimerPaused ==> s' == s
    ensures s.isTimerPaused ==> s'.sessionStartTime == now
    ensures s'.game == s.game && s'.totalElapsedSeconds == s.totalElapsedSeconds
  {
    if !s.isTimerPaused then s
    else s.(sessionStartTime := now, isTimerPaused := false)
  }

  /** The periodic tick: the game's time becomes the total so far plus the running seconds. */
  function UpdateElapsedTime(s: Session, now: int): (s': Session)
    ensures s.isTimerPaused || s.game.None? ==> s' == s
    ensures s'.game.Some? == s.game.Some?
    ensures s'.sessionStartTime == s.sessionStartTime && s'.totalElapsedSeconds == s.totalElapsedSeconds
    ensures s'.isTimerPaused == s.isTimerPaused
    ensures !s.isTimerPaused && s.game.Some? ==>
      s'.game.value == s.game.value.(elapsedTime := s.totalElapsedSeconds + SessionSeconds(s, now))
  {
    if s.isTimerPaused then s
    else
      match s.game
      case None => s
      case Some(st) => s.(game := Some(st.(elapsedTime := s.totalElapsedSeconds + SessionSeconds(s, now))))
  }

  /** Pausing twice is pausing once, whatever the second clock reading. */
  lemma PauseIdempotent(s: Session, now1: int, now2: int)
    ensures PauseTimer(PauseTimer(s, now1), now2) == PauseTimer(s, now1)
  {
  }

  /** Resuming twice is resuming once, whatever the second clock reading. */
  lemma ResumeIdempotent(s: Session, now1: int, now2: int)
    ensures ResumeTimer(ResumeTimer(s, now1), now2) == ResumeTimer(s, now1)
  {
  }

  /** While paused the clock does not move: ticks change nothing. */
  lemma PausedTickIsNoOp(s: Session, now1: int, now2: int)
    ensures UpdateElapsedTime(PauseTimer(s, now1), now2) == PauseTimer(s, now1)
  {
  }

  /** A pause followed by a resume keeps the game's time as it was at the pause. */
  lemma PauseResumeKeepsTime(s: Session, now1: int, now2: int)
    requires !s.isTimerPaused && s.game.Some?
    ensures ResumeTimer(PauseTimer(s, now1), now2).game.value.elapsedTime
         == s.totalElapsedSeconds + SessionSeconds(s, now1)
    ensures UpdateElapsedTime(ResumeTimer(PauseTimer(s, now1), now2), now2).game.value.elapsedTime
         == s.totalElapsedSeconds + SessionSeconds(s, now1)
  {
  }

  // ---------------------------------------------------------------------------
  // setValue / clearValue
  // ---------------------------------------------------------------------------

  /**
   * The board after writing `value` into (`row`, `col`), before the error
   * flags are recomputed: that cell takes `value` and loses its notes, and
   * a nonzero `value` is pruned from the notes of its row, column and box.
   */
  function Prepared(b: Board, row: int, col: int, value: int): (b': Board)
    requires IsBoard(b) && InRange(row) && InRange(col)
    ensures IsBoard(b')
    ensures forall r, c :: InRange(r) && InRange(c) ==>
      b'[r][c].row == b[r][c].row && b'[r][c].col == b[r][c].col
      && b'[r][c].isInitial == b[r][c].isInitial && b'[r][c].isError == b[r][c].isError
    ensures forall r, c :: InRange(r) && InRange(c) ==>
      b'[r][c].value == (if r == row && c == col then value else b[r][c].value)
    ensures forall r, c :: InRange(r) && InRange(c) ==>
      b'[r][c].notes == (if r == row && c == col then {}
                         else if value != 0 && Peers(row, col, r, c) then b[r][c].notes - {value}
                         else b[r][c].notes)
  {
    var written := WithValue(b, row, col, value);
    if value != 0 then ClearInvalidNotes(written, row, col, value) else written
  }

  /** `Prepared` with every error flag recomputed: the board `setValue` leaves behind. */
  function Written(b: Board, row: int, col: int, value: int): (b': Board)
    requires IsBoard(b) && InRange(row) && InRange(col)
    ensures IsBoard(b')
  {
    MarkErrors(Prepared(b, row, col, value))
  }

  /** The written cell takes `value` and loses its notes. */
  lemma WrittenSelected(b: Board, row: int, col: int, value: int)
    requires IsBoard(b) && InRange(row) && InRange(col)
    ensures var b': Board := Written(b, row, col, value);
      b'[row][col].value == value && b'[row][col].notes == {}
  {
  }

  /** Every cell keeps its identity and initial flag, and its error flag reports a conflict on the new board. */
  lemma WrittenFlags(b: Board, row: int, col: int, value: int)
    requires IsBoard(b) && InRange(row) && InRange(col)
    ensures var b': Board := Written(b, row, col, value);
      forall r, c :: InRange(r) && InRange(c) ==>
        && b'[r][c].isInitial == b[r][c].isInitial
        && b'[r][c].row == b[r][c].row && b'[r][c].col == b[r][c].col
        && b'[r][c].isError == HasConflict(Values(b'), r, c)
  {
  }

  /** Every other cell keeps its value, and loses `value` from its notes exactly when it is a peer. */
  lemma WrittenOthers(b: Board, row: int, col: int, value: int)
    requires IsBoard(b) && InRange(row) && InRange(col)
    ensures var b': Board := Written(b, row, col, value);
      forall r, c :: InRange(r) && InRange(c) && (r != row || c != col) ==>
        && b'[r][c].value == b[r][c].value
        && b'[r][c].notes == (if value != 0 && Peers(row, col, r, c) then b[r][c].notes - {value} else b[r][c].notes)
  {
  }

  /** What `setValue` does to the board, cell by cell. */
  lemma WrittenCells(b: Board, row: int, col: int, value: int)
    requires IsBoard(b) && InRange(row) && InRange(col)
    ensures var b': Board := Written(b, row, col, value);
      b'[row][col].value == value && b'[row][col].notes == {}
    ensures var b': Board := Written(b, row, col, value);
      forall r, c :: InRange(r) && InRange(c) ==>
        && b'[r][c].isInitial == b[r][c].isInitial
        && b'[r][c].row == b[r][c].row && b'[r][c].col == b[r][c].col
        && b'[r][c].isError == HasConflict(Values(b'), r, c)
    ensures var b': Board := Written(b, row, col, value);
      forall r, c :: InRange(r) && InRange(c) && (r != row || c != col) ==>
        && b'[r][c].value == b[r][c].value
        && b'[r][c].notes == (if value != 0 && Peers(row, col, r, c) then b[r][c].notes - {value} else b[r][c].notes)
  {
    WrittenSelected(b, row, col, value);
    WrittenFlags(b, row, col, value);
    WrittenOthers(b, row, col, value);
  }

  /**
   * The new snapshot after writing `value` into the selected, non-initial
   * cell: the board is `Written`, the completion flag is recomputed from it,
   * and the highlight becomes `value`.
   */
  function ApplyValue(st: GameState, value: int): (st': GameState)
    requires ValidGame(st)
    ensures ValidGame(st')
    ensures st'.selectedRow == st.selectedRow && st'.selectedCol == st.selectedCol
    ensures st'.highlightedNumber == value
    ensures st'.mistakes == st.mistakes && st'.emptyCellsCount == st.emptyCellsCount
    ensures st'.elapsedTime == st.elapsedTime
  {
    var updated := Written(st.board, st.selectedRow, st.selectedCol, value);
    st.(board := updated, isComplete := IsComplete(Values(updated)), highlightedNumber := value)
  }

  /**
   * `setValue(value)`. Nothing happens without a game or on an initial cell.
   * When the board becomes complete the clock is paused at `now`.
   */
  function SetValue(s: Session, value: int, now: int): (s': Session)
    requires ValidSession(s)
    ensures ValidSession(s')
    ensures s.game.None? ==> s' == s
    ensures s.game.Some? && s.game.value.board[s.game.value.selectedRow][s.game.value.selectedCol].isInitial ==> s' == s
    ensures s'.game.Some? == s.game.Some?
    ensures s.game.Some? && !s.game.value.board[s.game.value.selectedRow][s.game.value.selectedCol].isInitial ==>
      s'.game.Some? && var st, st' := s.game.value, s'.game.value;
      && st'.board == ApplyValue(st, value).board
      && st'.isComplete == IsComplete(Values(st'.board))
      && st'.highlightedNumber == value
      && st'.selectedRow == st.selectedRow && st'.selectedCol == st.selectedCol
      && st'.mistakes == st.mistakes && st'.emptyCellsCount == st.emptyCellsCount
      && (st'.isComplete ==> s' == PauseTimer(s.(game := Some(ApplyValue(st, value))), now))
      && (!st'.isComplete ==> s' == s.(game := Some(ApplyValue(st, value))))
  {
    match s.game
    case None => s
    case Some(st) =>
      if st.board[st.selectedRow][st.selectedCol].isInitial then s
      else
        var st' := ApplyValue(st, value);
        var s1 := s.(game := Some(st'));
        if st'.isComplete then PauseTimer(s1, now) else s1
  }

  /** `clearValue()`, which is `setValue(0)`. */
  function ClearValue(s: Session, now: int): (s': Session)
    requires ValidSession(s)
    ensures ValidSession(s')
    ensures s.game.None? ==> s' == s
    ensures s.game.Some? && s.game.value.board[s.game.value.selectedRow][s.game.value.selectedCol].isInitial ==> s' == s
    ensures s.game.Some? && !s.game.value.board[s.game.value.selectedRow][s.game.value.selectedCol].isInitial ==>
      s'.game.Some? && var st, st' := s.game.value, s'.game.value;
      var row, col := st.selectedRow, st.selectedCol;
      && st'.board[row][col].value == 0 && st'.board[row][col].notes == {}
      && st'.selectedRow == row && st'.selectedCol == col
      && st'.mistakes == st.mistakes && st'.emptyCellsCount == st.emptyCellsCount
      && st'.elapsedTime == st.elapsedTime
      && st'.highlightedNumber == 0
      && !st'.isComplete
      && s' == s.(game := Some(st'))
      && (forall r, c :: InRange(r) && InRange(c) && (r != row || c != col) ==>
        st'.board[r][c].value == st.board[r][c].value && st'.board[r][c].notes == st.board[r][c].notes)
      && forall r, c :: InRange(r) && InRange(c) ==>
        && st'.board[r][c].isInitial == st.board[r][c].isInitial
        && st'.board[r][c].row == st.board[r][c].row && st'.board[r][c].col == st.board[r][c].col
        && st'.board[r][c].isError == HasConflict(Values(st'.board), r, c)
    ensures s' == SetValue(s, 0, now)
  {
    if s.game.Some? && !s.game.value.board[s.game.value.selectedRow][s.game.value.selectedCol].isInitial then
      WrittenCells(s.game.value.board, s.game.value.selectedRow, s.game.value.selectedCol, 0);
      SetValue(s, 0, now)
    else
      SetValue(s, 0, now)
  }

  // ---------------------------------------------------------------------------
  // toggleNote
  // ---------------------------------------------------------------------------

  /** `toggleNote` applies: the selected cell is neither initial nor filled, and `number` is a legal candidate there. */
  predicate CanToggle(st: GameState, number: int)
    requires ValidGame(st)
  {
    var cell := st.board[st.selectedRow][st.selectedCol];
    !cell.isInitial && cell.value == 0 && IsValidPlacement(Values(st.board), st.selectedRow, st.selectedCol, number)
  }

  /** `toggleNote(number)`: flips `number` in the selected cell's notes when the cell and the digit allow it. */
  function ToggleNote(s: Session, number: int): (s': Session)
    requires ValidSession(s)
    ensures ValidSession(s')
    ensures s.game.None? || !CanToggle(s.game.value, number) ==> s' == s
    ensures s.game.Some? && CanToggle(s.game.value, number) ==>
      s'.game.Some? && var st, st' := s.game.value, s'.game.value;
      var row, col := st.selectedRow, st.selectedCol;
      && s' == s.(game := Some(st.(board := st'.board)))
      && IsBoard(st'.board)
      && (number in st'.board[row][col].notes <==> number !in st.board[row][col].notes)
      && (forall n :: n != number ==> (n in st'.board[row][col].notes <==> n in st.board[row][col].notes))
      && st'.board[row][col] == st.board[row][col].(notes := st'.board[row][col].notes)
      && forall r, c :: InRange(r) && InRange(c) && (r != row || c != col) ==> st'.board[r][c] == st.board[r][c]
  {
    match s.game
    case None => s
    case Some(st) =>
      if !CanToggle(st, number) then s
      else
        var row, col := st.selectedRow, st.selectedCol;
        var cell := st.board[row][col];
        var newNotes := if number in cell.notes then cell.notes - {number} else cell.notes + {number};
        var newBoard := st.board[row := st.board[row][col := cell.(notes := newNotes)]];
        s.(game := Some(st.(board := newBoard)))
  }

  /** Toggling the same note twice restores the session exactly. */
  lemma ToggleNoteInvolution(s: Session, number: int)
    requires ValidSession(s)
    ensures ToggleNote(ToggleNote(s, number), number) == s
  {
    if s.game.Some? && CanToggle(s.game.value, number) {
      var st := s.game.value;
      var st' := ToggleNote(s, number).game.value;
      var row, col := st.selectedRow, st.selectedCol;
      ToggleNoteKeepsValues(s, number);
      assert CanToggle(st', number);
      var st'' := ToggleNote(ToggleNote(s, number), number).game.value;
      assert st''.board[row][col].notes == st.board[row][col].notes;
      assert st''.board[row] == st.board[row];
      assert st''.board == st.board;
    }
  }

  // ---------------------------------------------------------------------------
  // Note invariants
  // ---------------------------------------------------------------------------

  /** Only empty cells carry notes. */
  predicate NotesOnEmptyOnly(b: Board)
    requires IsBoard(b)
  {
    forall r, c :: 0 <= r < SIZE && 0 <= c < SIZE && b[r][c].value != 0 ==> b[r][c].notes == {}
  }

  /**
   * `n` is a legal candidate at (`r`, `c`): no cell of its row, column or box
   * holds it. This is exactly the verdict of `IsValidPlacement`, stated
   * without its scan so that proofs about many cells stay small.
   */
  ghost predicate Candidate(g: Grid, r: int, c: int, n: int)
    requires IsGrid(g) && InRange(r) && InRange(c)
  {
    forall r2, c2 :: InRange(r2) && InRange(c2) && Peers(r, c, r2, c2) ==> g[r2][c2] != n
  }

  /** Every note is a legal candidate for its cell. */
  ghost predicate NotesLegal(b: Board)
    requires IsBoard(b)
  {
    forall r, c, n :: InRange(r) && InRange(c) && n in b[r][c].notes ==> Candidate(Values(b), r, c, n)
  }

  /** The note invariants of a snapshot. */
  ghost predicate NotesSound(b: Board)
    requires IsBoard(b)
  {
    NotesOnEmptyOnly(b) && NotesLegal(b)
  }

  /** `setValue` keeps every note a legal candidate on an empty cell. */
  lemma SetValueKeepsNotesSound(s: Session, value: int, now: int)
    requires ValidSession(s) && s.game.Some? && NotesSound(s.game.value.board)
    ensures NotesSound(SetValue(s, value, now).game.value.board)
  {
    var st := s.game.value;
    if !st.board[st.selectedRow][st.selectedCol].isInitial {
      WrittenKeepsNotesSound(st.board, st.selectedRow, st.selectedCol, value);
    }
  }

  /** The board-level core of `SetValueKeepsNotesSound`. */
  lemma WrittenKeepsNotesSound(b: Board, row: int, col: int, value: int)
    requires IsBoard(b) && InRange(row) && InRange(col) && NotesSound(b)
    ensures NotesSound(Written(b, row, col, value))
  {
    WrittenNotesOnEmpty(b, row, col, value);
    WrittenNotesLegal(b, row, col, value);
  }

  /** After `setValue` only empty cells carry notes. */
  lemma WrittenNotesOnEmpty(b: Board, row: int, col: int, value: int)
    requires IsBoard(b) && InRange(row) && InRange(col) && NotesOnEmptyOnly(b)
    ensures NotesOnEmptyOnly(Written(b, row, col, value))
  {
    WrittenSelected(b, row, col, value);
    WrittenOthers(b, row, col, value);
    NotesOnEmptyAfterWrite(b, Written(b, row, col, value), row, col, value);
  }

  /** The write empties the written cell's notes and only shrinks the others', so notes stay on empty cells. */
  lemma NotesOnEmptyAfterWrite(b: Board, b': Board, row: int, col: int, value: int)
    requires IsBoard(b) && IsBoard(b') && InRange(row) && InRange(col) && NotesOnEmptyOnly(b)
    requires b'[row][col].notes == {}
    requires forall r, c :: InRange(r) && InRange(c) && (r != row || c != col) ==>
      && b'[r][c].value == b[r][c].value
      && b'[r][c].notes <= b[r][c].notes
    ensures NotesOnEmptyOnly(b')
  {
    forall r, c | 0 <= r < SIZE && 0 <= c < SIZE && b'[r][c].value != 0 ensures b'[r][c].notes == {} {
      if r != row || c != col {
        assert InRange(r) && InRange(c);
        assert b[r][c].value != 0;
        assert b[r][c].notes == {};
      }
    }
  }

  /** After `setValue` every remaining note is still a legal candidate. */
  lemma WrittenNotesLegal(b: Board, row: int, col: int, value: int)
    requires IsBoard(b) && InRange(row) && InRange(col) && NotesSound(b)
    ensures NotesLegal(Written(b, row, col, value))
  {
    WrittenSelected(b, row, col, value);
    WrittenOthers(b, row, col, value);
    NotesLegalAfterWrite(b, Written(b, row, col, value), row, col, value);
  }

  /**
   * Any board that differs from a note-sound board as `setValue` makes it
   * differ (one cell overwritten and emptied of notes, the value pruned from
   * its peers' notes) keeps every note a legal candidate.
   */
  lemma NotesLegalAfterWrite(b: Board, b': Board, row: int, col: int, value: int)
    requires IsBoard(b) && IsBoard(b') && InRange(row) && InRange(col) && NotesSound(b)
    requires b'[row][col].value == value && b'[row][col].notes == {}
    requires forall r, c :: InRange(r) && InRange(c) && (r != row || c != col) ==>
      && b'[r][c].value == b[r][c].value
      && b'[r][c].notes == (if value != 0 && Peers(row, col, r, c) then b[r][c].notes - {value} else b[r][c].notes)
    ensures NotesLegal(b')
  {
    forall r: int, c: int, n: int | InRange(r) && InRange(c) && n in b'[r][c].notes
      ensures Candidate(Values(b'), r, c, n)
    {
      assert r != row || c != col;
      assert n in b[r][c].notes;
      NoteSurvivesWrite(b, b', row, col, value, r, c, n);
    }
  }

  /** One note that survives the write: it was a candidate before, and the written value is not it. */
  lemma NoteSurvivesWrite(b: Board, b': Board, row: int, col: int, value: int, r: int, c: int, n: int)
    requires IsBoard(b) && IsBoard(b') && InRange(row) && InRange(col) && InRange(r) && InRange(c)
    requires r != row || c != col
    requires b[r][c].value == 0 && Candidate(Values(b), r, c, n)
    requires value != 0 && Peers(row, col, r, c) ==> value != n
    requires b'[row][col].value == value
    requires forall r2, c2 :: InRange(r2) && InRange(c2) && (r2 != row || c2 != col) ==> b'[r2][c2].value == b[r2][c2].value
    ensures Candidate(Values(b'), r, c, n)
  {
    var g, g' := Values(b), Values(b');
    assert g[r][c] != n;
    PlacementAfterWrite(g, g', row, col, value, r, c, n);
  }

  /**
   * A digit that was a legal candidate at (`r`, `c`) stays one after another
   * cell is overwritten, unless the new value is that digit in a peer.
   */
  lemma PlacementAfterWrite(g: Grid, g': Grid, row: int, col: int, value: int, r: int, c: int, n: int)
    requires IsGrid(g) && IsGrid(g') && InRange(row) && InRange(col) && InRange(r) && InRange(c)
    requires g'[row][col] == value
    requires forall r2, c2 :: InRange(r2) && InRange(c2) && (r2 != row || c2 != col) ==> g'[r2][c2] == g[r2][c2]
    requires Candidate(g, r, c, n)
    requires Peers(row, col, r, c) ==> value != n
    ensures Candidate(g', r, c, n)
  {
    forall r2, c2 | InRange(r2) && InRange(c2) && Peers(r, c, r2, c2) ensures g'[r2][c2] != n {
      if r2 == row && c2 == col {
        assert Peers(row, col, r, c);
      }
    }
  }

  /** `toggleNote` keeps every note a legal candidate on an empty cell. */
  lemma ToggleNoteKeepsNotesSound(s: Session, number: int)
    requires ValidSession(s) && s.game.Some? && NotesSound(s.game.value.board)
    ensures NotesSound(ToggleNote(s, number).game.value.board)
  {
    var st := s.game.value;
    if CanToggle(st, number) {
      var row, col := st.selectedRow, st.selectedCol;
      ToggleNoteKeepsValues(s, number);
      NotesSoundAfterToggle(st.board, ToggleNote(s, number).game.value.board, row, col, number);
    }
  }

  /**
   * A board that differs from a note-sound board only by `number` added to or
   * removed from the notes of an empty cell where it is a candidate is
   * note-sound.
   */
  lemma NotesSoundAfterToggle(b: Board, b': Board, row: int, col: int, number: int)
    requires IsBoard(b) && IsBoard(b') && InRange(row) && InRange(col) && NotesSound(b)
    requires Values(b') == Values(b)
    requires b[row][col].value == 0 && Candidate(Values(b), row, col, number)
    requires b'[row][col].notes <= b[row][col].notes + {number}
    requires forall r, c :: InRange(r) && InRange(c) && (r != row || c != col) ==> b'[r][c].notes == b[r][c].notes
    ensures NotesSound(b')
  {
    forall r, c | 0 <= r < SIZE && 0 <= c < SIZE && b'[r][c].value != 0 ensures b'[r][c].notes == {} {
      assert InRange(r) && InRange(c);
      assert Values(b')[r][c] == Values(b)[r][c];
      if r != row || c != col {
        assert b[r][c].notes == {};
      }
    }
    assert NotesOnEmptyOnly(b');
    forall r: int, c: int, n: int | InRange(r) && InRange(c) && n in b'[r][c].notes
      ensures Candidate(Values(b'), r, c, n)
    {
      if r != row || c != col {
        assert n in b[r][c].notes;
      }
    }
    assert NotesLegal(b');
  }

  /** Every error flag reports whether its cell conflicts with a peer. */
  ghost predicate ErrorsAccurate(b: Board)
    requires IsBoard(b)
  {
    forall r, c :: InRange(r) && InRange(c) ==> b[r][c].isError == HasConflict(Values(b), r, c)
  }

  /** The invariants every snapshot of a session keeps. */
  ghost predicate GameSound(st: GameState) {
    ValidGame(st) && ErrorsAccurate(st.board) && NotesSound(st.board)
  }

  /** `toggleNote` touches notes only: the digits on the board stay as they were. */
  lemma ToggleNoteKeepsValues(s: Session, number: int)
    requires ValidSession(s) && s.game.Some?
    ensures Values(ToggleNote(s, number).game.value.board) == Values(s.game.value.board)
  {
    var b, b' := s.game.value.board, ToggleNote(s, number).game.value.board;
    forall r | 0 <= r < SIZE ensures Values(b')[r] == Values(b)[r] {
    }
  }

  /** A board cut out of a conflict-free solution (each cell blank or the solution's digit) has no conflicts. */
  lemma SubgridNoConflict(g: Grid, solution: Grid)
    requires IsGrid(g) && IsGrid(solution) && Consistent(solution)
    requires forall r, c :: InRange(r) && InRange(c) ==> g[r][c] == 0 || g[r][c] == solution[r][c]
    ensures forall r, c :: InRange(r) && InRange(c) ==> !HasConflict(g, r, c)
  {
    forall r, c | InRange(r) && InRange(c) && g[r][c] != 0 ensures !DuplicatedAt(g, r, c) {
      forall r2, c2 | InRange(r2) && InRange(c2) && (r2 != r || c2 != c) && Peers(r, c, r2, c2)
        ensures g[r2][c2] != g[r][c]
      {
        assert PairOk(solution, r, c, r2, c2);
      }
    }
  }

  /**
   * A freshly generated puzzle (cells blank or from the solution, no error
   * flags, no notes) starts sound: its error flags are accurate because
   * nothing conflicts yet.
   */
  lemma GeneratedBoardSound(b: Board, solution: Grid)
    requires IsBoard(b) && IsGrid(solution) && IsComplete(solution)
    requires forall r, c :: InRange(r) && InRange(c) ==>
      (b[r][c].value == 0 || b[r][c].value == solution[r][c]) && !b[r][c].isError && b[r][c].notes == {}
    ensures ErrorsAccurate(b) && NotesSound(b)
  {
    CompleteIffConsistent(solution);
    SubgridNoConflict(Values(b), solution);
    QuietBoardSound(b);
  }

  /** A board without conflicts, error flags or notes is sound. */
  lemma QuietBoardSound(b: Board)
    requires IsBoard(b) && forall r, c :: InRange(r) && InRange(c) ==> !HasConflict(Values(b), r, c)
    requires forall r, c :: InRange(r) && InRange(c) ==> !b[r][c].isError && b[r][c].notes == {}
    ensures ErrorsAccurate(b) && NotesSound(b)
  {
    assert forall r, c, n :: InRange(r) && InRange(c) ==> n !in b[r][c].notes;
  }

  /** Moving the selection and the timer steps leave the board alone, so they keep the snapshot sound. */
  lemma MovesAndTicksKeepSound(s: Session, dr: int, dc: int, row: int, col: int, now: int)
    requires ValidSession(s) && s.game.Some? && GameSound(s.game.value)
    requires IsInt(dr) && IsInt(dc)
    ensures GameSound(MoveSelection(s, dr, dc).game.value)
    ensures GameSound(MoveSelectionTo(s, row, col).game.value)
    ensures GameSound(PauseTimer(s, now).game.value)
    ensures GameSound(ResumeTimer(s, now).game.value)
    ensures GameSound(UpdateElapsedTime(s, now).game.value)
  {
  }

  /** `toggleNote` keeps the snapshot sound. */
  lemma ToggleNoteKeepsSound(s: Session, number: int)
    requires ValidSession(s) && s.game.Some? && GameSound(s.game.value)
    ensures GameSound(ToggleNote(s, number).game.value)
  {
    ToggleNoteKeepsNotesSound(s, number);
    ToggleNoteKeepsValues(s, number);
  }

  /** Only starting a game sets the mistake counter and the difficulty; no intent or timer step touches them. */
  lemma IntentsKeepCounters(s: Session, value: int, dr: int, dc: int, row: int, col: int, now: int)
    requires ValidSession(s) && s.game.Some? && IsInt(dr) && IsInt(dc)
    ensures MoveSelection(s, dr, dc).game.value.mistakes == s.game.value.mistakes
    ensures MoveSelection(s, dr, dc).game.value.emptyCellsCount == s.game.value.emptyCellsCount
    ensures MoveSelectionTo(s, row, col).game.value.mistakes == s.game.value.mistakes
    ensures MoveSelectionTo(s, row, col).game.value.emptyCellsCount == s.game.value.emptyCellsCount
    ensures SetValue(s, value, now).game.value.mistakes == s.game.value.mistakes
    ensures SetValue(s, value, now).game.value.emptyCellsCount == s.game.value.emptyCellsCount
    ensures ClearValue(s, now).game.value.mistakes == s.game.value.mistakes
    ensures ClearValue(s, now).game.value.emptyCellsCount == s.game.value.emptyCellsCount
    ensures ToggleNote(s, value).game.value.mistakes == s.game.value.mistakes
    ensures ToggleNote(s, value).game.value.emptyCellsCount == s.game.value.emptyCellsCount
    ensures PauseTimer(s, now).game.value.mistakes == s.game.value.mistakes
    ensures PauseTimer(s, now).game.value.emptyCellsCount == s.game.value.emptyCellsCount
    ensures UpdateElapsedTime(s, now).game.value.mistakes == s.game.value.mistakes
    ensures UpdateElapsedTime(s, now).game.value.emptyCellsCount == s.game.value.emptyCellsCount
  {
  }

  /** `clearValue` keeps the snapshot sound. */
  lemma ClearValueKeepsSound(s: Session, now: int)
    requires ValidSession(s) && s.game.Some? && GameSound(s.game.value)
    ensures GameSound(ClearValue(s, now).game.value)
  {
    SetValueKeepsSound(s, 0, now);
  }

  /** `setValue` keeps the snapshot sound. */
  lemma SetValueKeepsSound(s: Session, value: int, now: int)
    requires ValidSession(s) && s.game.Some? && GameSound(s.game.value)
    ensures GameSound(SetValue(s, value, now).game.value)
  {
    var st := s.game.value;
    SetValueKeepsNotesSound(s, value, now);
    if !st.board[st.selectedRow][st.selectedCol].isInitial {
      WrittenFlags(st.board, st.selectedRow, st.selectedCol, value);
    }
  }

  // ---------------------------------------------------------------------------
  // Starting and restoring games
  // ---------------------------------------------------------------------------

  /**
   * `startNewGame(difficulty)` around a freshly generated `puzzle`: selection
   * at the top-left corner, clock at zero and running from `now`, no
   * highlight, no mistakes, and the difficulty recorded.
   */
  function StartNewGame(s: Session, difficulty: int, puzzle: Board, now: int): (s': Session)
    requires IsBoard(puzzle)
    ensures ValidSession(s') && s'.game.Some?
    ensures var st := s'.game.value;
      && st.board == puzzle
      && st.selectedRow == 0 && st.selectedCol == 0
      && st.elapsedTime == 0 && !st.isComplete && st.mistakes == 0
      && st.highlightedNumber == 0 && st.emptyCellsCount == difficulty
    ensures s'.sessionStartTime == now && s'.totalElapsedSeconds == 0 && !s'.isTimerPaused
  {
    Session(Some(NewGameState(puzzle).(emptyCellsCount := difficulty)), now, 0, false)
  }
  /**
   * `startNewGame` together with the puzzle generator it calls. A started game
   * is sound (its error flags and notes are accurate), and when the fill
   * succeeded it has exactly as many blanks as the difficulty it records.
   * When the generator returns `None` (the run in which the source's removal
   * loop never ends) no game is started and the session is unchanged.
   */
  method StartGeneratedGame(s: Session, difficulty: int, draws: nat -> seq<int>, samples: seq<Pos>, now: int)
    returns (s': Session)
    requires ValidDraws(draws)
    requires forall i :: 0 <= i < |samples| ==> OnBoard(samples[i])
    requires difficulty <= |SampleSet(samples)|
    ensures Fill(EmptyGrid(), draws, 0).0 || difficulty <= 0 ==>
      && ValidSession(s') && s'.game.Some? && GameSound(s'.game.value)
      && s' == StartNewGame(s, difficulty, s'.game.value.board, now)
    ensures Fill(EmptyGrid(), draws, 0).0 ==>
      s'.game.Some? && s'.game.value.emptyCellsCount == difficulty
      && |ZeroCells(Values(s'.game.value.board))| == Blanks(difficulty)
    ensures !Fill(EmptyGrid(), draws, 0).0 && difficulty > 0 ==> s' == s
  {
    var r;
    ghost var solution;
    r, solution := GenerateNewGame(difficulty, draws, samples);
    if r.None? {
      return s;
    }
    var puzzle := r.value;
    if IsComplete(solution) {
      GeneratedBoardSound(puzzle, solution);
    } else {
      QuietBoardSound(puzzle);
    }
    s' := StartNewGame(s, difficulty, puzzle, now);
  }


  /** The clock of a game started at `now` reads the whole seconds since then. */
  lemma FreshGameClock(s: Session, difficulty: int, puzzle: Board, now: int, later: int)
    requires IsBoard(puzzle) && later >= now
    ensures UpdateElapsedTime(StartNewGame(s, difficulty, puzzle, now), later).game.value.elapsedTime
         == (later - now) / 1000
  {
  }

  /**
   * `continueGame()` given what the auto-save slot held: a saved game
   * becomes current and its time the running total; with nothing saved the
   * session is unchanged.
   */
  function ContinueGame(s: Session, saved: Option<GameState>, now: int): (s': Session)
    ensures saved.None? ==> s' == s
    ensures saved.Some? ==>
      s'.game == saved && s'.totalElapsedSeconds == saved.value.elapsedTime
      && s'.sessionStartTime == now && !s'.isTimerPaused
  {
    match saved
    case None => s
    case Some(st) => Session(Some(st), now, st.elapsedTime, false)
  }

  /**
   * A game state rebuilt from the manual-save slot: error flags and the
   * completion flag are recomputed from the board, and the time is 0.
   */
  function ManualSaveState(board: Board, selectedRow: int, selectedCol: int, mistakes: int,
                           highlightedNumber: int, emptyCellsCount: int): (st: GameState)
    requires IsBoard(board)
    ensures IsBoard(st.board) && Values(st.board) == Values(board)
    ensures forall r, c :: InRange(r) && InRange(c) ==> st.board[r][c].isError == HasConflict(Values(board), r, c)
    ensures st.isComplete == IsComplete(Values(board))
    ensures st.elapsedTime == 0
    ensures st.selectedRow == selectedRow && st.selectedCol == selectedCol && st.mistakes == mistakes
    ensures st.highlightedNumber == highlightedNumber && st.emptyCellsCount == emptyCellsCount
    ensures forall r, c :: InRange(r) && InRange(c) ==>
      st.board[r][c] == board[r][c].(isError := HasConflict(Values(board), r, c))
  {
    var updated := MarkErrors(board);
    GameState(updated, selectedRow, selectedCol, 0, IsComplete(Values(updated)), mistakes, highlightedNumber, emptyCellsCount)
  }
  /**
   * A game state rebuilt from the auto-save slot, the state `ContinueGame`
   * is handed: as for the manual slot, every cell is kept except its error
   * flag, which is recomputed, and completion is recomputed; the stored time
   * is kept.
   */
  function AutoSaveState(board: Board, selectedRow: int, selectedCol: int, elapsedTime: int, mistakes: int,
                         highlightedNumber: int, emptyCellsCount: int): (st: GameState)
    requires IsBoard(board)
    ensures IsBoard(st.board) && Values(st.board) == Values(board)
    ensures forall r, c :: InRange(r) && InRange(c) ==>
      st.board[r][c] == board[r][c].(isError := HasConflict(Values(board), r, c))
    ensures ErrorsAccurate(st.board)
    ensures st.isComplete == IsComplete(Values(board))
    ensures st.elapsedTime == elapsedTime
    ensures st.selectedRow == selectedRow && st.selectedCol == selectedCol && st.mistakes == mistakes
    ensures st.highlightedNumber == highlightedNumber && st.emptyCellsCount == emptyCellsCount
  {
    ManualSaveState(board, selectedRow, selectedCol, mistakes, highlightedNumber, emptyCellsCount).(elapsedTime := elapsedTime)
  }


  /**
   * `loadManualSave()` given what the manual slot held: the loaded game
   * becomes current but keeps the current game's time (0 without one).
   * The flag reports whether anything was loaded.
   */
  function LoadManualSave(s: Session, loaded: Option<GameState>): (res: (Session, bool))
    ensures res.1 <==> loaded.Some?
    ensures loaded.None? ==> res.0 == s
    ensures loaded.Some? ==>
      && res.0.game == Some(loaded.value.(elapsedTime := if s.game.Some? then s.game.value.elapsedTime else 0))
      && res.0.sessionStartTime == s.sessionStartTime && res.0.totalElapsedSeconds == s.totalElapsedSeconds
      && res.0.isTimerPaused == s.isTimerPaused
  {
    match loaded
    case None => (s, false)
    case Some(st) =>
      var currentTime := match s.game case Some(g) => g.elapsedTime case None => 0;
      (s.(game := Some(st.(elapsedTime := currentTime))), true)
  }
}

=== FILE: generator.dfy ===
/**
 * Puzzle generation: a randomised backtracking fill of an empty grid, then
 * blanking a number of cells chosen at random.
 *
 * Randomness is supplied by the caller. `draws(k)` is the digit order the
 * k-th call of `(1..9).shuffled()` returns; `samples` is the stream of
 * (row, col) pairs drawn by `Random.nextInt(9)` during removal.
 */
module SudokuGenerator {
  import opened Wrappers
  import opened SudokuModels
  import opened SudokuRules

  // ---------------------------------------------------------------------------
  // Grids under construction
  // ---------------------------------------------------------------------------

  /** The grid `List(9) { MutableList(9) { 0 } }`. */
  function EmptyGrid(): (g: Grid)
    ensures IsGrid(g)
    ensures forall r, c :: InRange(r) && InRange(c) ==> g[r][c] == 0
  {
    seq(SIZE, _ => seq(SIZE, _ => 0))
  }

  /** `g` with the cell at (`r`, `c`) set to `v`. */
  function Place(g: Grid, r: int, c: int, v: int): (g': Grid)
    requires IsGrid(g) && InRange(r) && InRange(c)
    ensures IsGrid(g')
    ensures g'[r][c] == v
    ensures forall r', c' :: InRange(r') && InRange(c') && (r' != r || c' != c) ==> g'[r'][c'] == g[r'][c']
  {
    g[r := g[r][c := v]]
  }

  /** The positions of the empty cells. */
  ghost function ZeroCells(g: Grid): set<Pos>
    requires IsGrid(g)
  {
    set r, c | 0 <= r < SIZE && 0 <= c < SIZE && g[r][c] == 0 :: Pos(r, c)
  }

  lemma ZeroCellsMember(g: Grid, p: Pos)
    requires IsGrid(g)
    ensures p in ZeroCells(g) <==> OnBoard(p) && g[p.row][p.col] == 0
  {
    if OnBoard(p) && g[p.row][p.col] == 0 {
      assert Pos(p.row, p.col) in ZeroCells(g);
    }
  }

  /** Filling an empty cell removes exactly its position from the empty cells; blanking a cell adds it. */
  lemma PlaceZeroCells(g: Grid, r: int, c: int, v: int)
    requires IsGrid(g) && InRange(r) && InRange(c)
    ensures v != 0 ==> ZeroCells(Place(g, r, c, v)) == ZeroCells(g) - {Pos(r, c)}
    ensures v == 0 ==> ZeroCells(Place(g, r, c, v)) == ZeroCells(g) + {Pos(r, c)}
  {
    var g' := Place(g, r, c, v);
    forall p ensures p in ZeroCells(g') <==> p in (if v != 0 then ZeroCells(g) - {Pos(r, c)} else ZeroCells(g) + {Pos(r, c)}) {
      ZeroCellsMember(g, p);
      ZeroCellsMember(g', p);
    }
  }

  /** A grid with no empty cell has no empty positions. */
  lemma NoZeroCells(g: Grid)
    requires IsGrid(g)
    ensures NoZero(g) <==> ZeroCells(g) == {}
  {
    if !NoZero(g) {
      var r, c :| 0 <= r < SIZE && 0 <= c < SIZE && g[r][c] == 0;
      ZeroCellsMember(g, Pos(r, c));
    }
    if ZeroCells(g) != {} {
      var p :| p in ZeroCells(g);
      ZeroCellsMember(g, p);
    }
  }

  // ---------------------------------------------------------------------------
  // fillBoard
  // ---------------------------------------------------------------------------

  /** (`r1`, `c1`) comes strictly before (`r2`, `c2`) in row-major order. */
  predicate Before(r1: int, c1: int, r2: int, c2: int) {
    r1 < r2 || (r1 == r2 && c1 < c2)
  }

  /**
   * The first empty cell at or after (`r`, `c`) in row-major order, the cell
   * the fill's nested `for (row in 0..8) for (col in 0..8)` scan stops at.
   */
  function FirstZeroFrom(g: Grid, r: int, c: int): (p: Option<Pos>)
    requires IsGrid(g) && 0 <= r <= SIZE && 0 <= c <= SIZE
    ensures p.Some? ==> OnBoard(p.value) && g[p.value.row][p.value.col] == 0 && !Before(p.value.row, p.value.col, r, c)
    ensures p.Some? ==> forall r', c' ::
      InRange(r') && InRange(c') && !Before(r', c', r, c) && Before(r', c', p.value.row, p.value.col)
      ==> g[r'][c'] != 0
    ensures p.None? ==> forall r', c' :: InRange(r') && InRange(c') && !Before(r', c', r, c) ==> g[r'][c'] != 0
    decreases SIZE - r, SIZE - c
  {
    if r == SIZE then None
    else if c == SIZE then FirstZeroFrom(g, r + 1, 0)
    else if g[r][c] == 0 then Some(Pos(r, c))
    else FirstZeroFrom(g, r, c + 1)
  }

  /** The first empty cell of the grid, or None when the grid is full. */
  function FirstZero(g: Grid): (p: Option<Pos>)
    requires IsGrid(g)
    ensures p.None? <==> NoZero(g)
    ensures p.Some? ==> OnBoard(p.value) && g[p.value.row][p.value.col] == 0
    ensures p.Some? ==> forall r, c :: InRange(r) && InRange(c) && Before(r, c, p.value.row, p.value.col) ==> g[r][c] != 0
  {
    FirstZeroScan(g);
    FirstZeroFrom(g, 0, 0)
  }

  lemma FirstZeroScan(g: Grid)
    requires IsGrid(g)
    ensures FirstZeroFrom(g, 0, 0).None? <==> NoZero(g)
  {
    var p := FirstZeroFrom(g, 0, 0);
    if p.Some? {
      assert g[p.value.row][p.value.col] == 0;
    } else {
      forall r, c | 0 <= r < SIZE && 0 <= c < SIZE ensures g[r][c] != 0 {
        assert !Before(r, c, 0, 0);
      }
    }
  }

  /** A digit order as `(1..9).shuffled()` returns it: nine different digits 1-9. */
  ghost predicate IsDigitOrder(p: seq<int>) {
    |p| == 9 && Distinct(p) && forall k :: 0 <= k < |p| ==> 1 <= p[k] <= 9
  }

  /** Every draw of the shuffle oracle is a digit order. */
  ghost predicate ValidDraws(draws: nat -> seq<int>) {
    forall k: nat :: IsDigitOrder(draws(k))
  }

  /** `g'` keeps every filled cell of `g`. */
  ghost predicate KeepsFilled(g: Grid, g': Grid)
    requires IsGrid(g) && IsGrid(g')
  {
    forall r, c :: InRange(r) && InRange(c) && g[r][c] != 0 ==> g'[r][c] == g[r][c]
  }

  /** Every cell `g'` filled in that `g` left empty holds a digit 1-9. */
  ghost predicate FillsWithDigits(g: Grid, g': Grid)
    requires IsGrid(g) && IsGrid(g')
  {
    forall r, c :: InRange(r) && InRange(c) && g[r][c] == 0 && g'[r][c] != 0 ==> 1 <= g'[r][c] <= 9
  }

  /** Placing a digit that passes the candidate test keeps a conflict-free grid conflict-free. */
  lemma PlacePreservesConsistent(g: Grid, r: int, c: int, v: int)
    requires IsGrid(g) && InRange(r) && InRange(c) && v != 0
    requires Consistent(g) && IsValidPlacement(g, r, c, v)
    ensures Consistent(Place(g, r, c, v))
  {
    var g' := Place(g, r, c, v);
    forall r1, c1, r2, c2 ensures PairOk(g', r1, c1, r2, c2) {
      if InRange(r1) && InRange(c1) && InRange(r2) && InRange(c2) && (r1 != r2 || c1 != c2) && Peers(r1, c1, r2, c2) {
        if r1 == r && c1 == c {
          assert g'[r2][c2] == g[r2][c2];
        } else if r2 == r && c2 == c {
          assert Peers(r, c, r1, c1);
          assert g'[r1][c1] == g[r1][c1];
        } else {
          assert PairOk(g, r1, c1, r2, c2);
        }
      }
    }
  }

  /** An empty grid has no conflicts. */
  lemma EmptyConsistent()
    ensures Consistent(EmptyGrid())
  {
    var g := EmptyGrid();
    forall r1, c1, r2, c2 ensures PairOk(g, r1, c1, r2, c2) {
    }
  }

  /**
   * The outcome of the backtracking fill as a value: whether it succeeded, the
   * grid it left and the index of the next unused shuffle. On a grid with an
   * empty cell it draws shuffle `k` and hands the digits to `FillTry`.
   */
  ghost function Fill(g: Grid, draws: nat -> seq<int>, k: nat): (r: (bool, Grid, nat))
    requires IsGrid(g) && ValidDraws(draws)
    ensures IsGrid(r.1) && r.2 >= k
    ensures r.0 ==> NoZero(r.1)
    ensures r.0 && Consistent(g) ==> IsComplete(r.1)
    ensures !r.0 ==> r.1 == g
    ensures KeepsFilled(g, r.1) && FillsWithDigits(g, r.1)
    decreases |ZeroCells(g)|, 1
  {
    match FirstZero(g)
    case None =>
      CompleteIffConsistent(g);
      (true, g, k)
    case Some(p) =>
      assert IsDigitOrder(draws(k));
      FillTry(g, p.row, p.col, draws(k), 0, draws, k + 1)
  }

  /**
   * The fill's digit loop at the empty cell (`row`, `col`), from the `i`-th
   * digit of `numbers` on: each digit that passes the candidate test is written
   * and the rest of the grid filled; the first success is kept, and when every
   * digit fails the grid is handed back unchanged.
   */
  ghost function FillTry(g: Grid, row: int, col: int, numbers: seq<int>, i: nat, draws: nat -> seq<int>, k: nat): (r: (bool, Grid, nat))
    requires IsGrid(g) && ValidDraws(draws) && InRange(row) && InRange(col) && g[row][col] == 0
    requires IsDigitOrder(numbers) && i <= |numbers|
    ensures IsGrid(r.1) && r.2 >= k
    ensures r.0 ==> NoZero(r.1)
    ensures r.0 && Consistent(g) ==> IsComplete(r.1)
    ensures !r.0 ==> r.1 == g
    ensures KeepsFilled(g, r.1) && FillsWithDigits(g, r.1)
    decreases |ZeroCells(g)|, 0, |numbers| - i
  {
    if i == |numbers| then (false, g, k)
    else if IsValidPlacement(g, row, col, numbers[i]) then
      PlaceShrinks(g, row, col, numbers[i]);
      var sub := Fill(Place(g, row, col, numbers[i]), draws, k);
      if sub.0 then
        FillSucceeded(g, row, col, numbers[i], sub.1);
        sub
      else FillTry(g, row, col, numbers, i + 1, draws, sub.2)
    else FillTry(g, row, col, numbers, i + 1, draws, k)
  }

  /**
   * The recursive backtracking fill. It finds the first empty cell and hands
   * the digits of the next shuffle to `TryDigits`; it reports success when no
   * empty cell is left. `k` is the index of the next unused shuffle; `k'` is
   * returned.
   */
  method FillBoard(g: Grid, draws: nat -> seq<int>, k: nat) returns (ok: bool, g': Grid, k': nat)
    requires IsGrid(g) && ValidDraws(draws)
    ensures IsGrid(g')
    ensures ok ==> NoZero(g')
    ensures ok && Consistent(g) ==> IsComplete(g')
    ensures !ok ==> g' == g
    ensures KeepsFilled(g, g') && FillsWithDigits(g, g')
    ensures k' >= k
    ensures (ok, g', k') == Fill(g, draws, k)
    decreases |ZeroCells(g)|, 1
  {
    match FirstZero(g) {
      case None =>
        CompleteIffConsistent(g);
        return true, g, k;
      case Some(p) =>
        var numbers := draws(k);
        assert IsDigitOrder(numbers);
        ok, g', k' := TryDigits(g, p.row, p.col, numbers, draws, k + 1);
    }
  }

  /**
   * The digit loop of the fill at the empty cell (`row`, `col`): each digit
   * that passes the candidate test is written and the fill recurses; when the
   * recursion fails the cell is set back to 0 and the next digit tried. When
   * every digit fails, the fill fails with the grid unchanged.
   */
  method TryDigits(g: Grid, row: int, col: int, numbers: seq<int>, draws: nat -> seq<int>, k: nat)
    returns (ok: bool, g': Grid, k': nat)
    requires IsGrid(g) && ValidDraws(draws) && InRange(row) && InRange(col) && g[row][col] == 0
    requires IsDigitOrder(numbers)
    ensures (ok, g', k') == FillTry(g, row, col, numbers, 0, draws, k)
    decreases |ZeroCells(g)|, 0
  {
    k' := k;
    var board := g;
    var i := 0;
    while i < |numbers|
      invariant 0 <= i <= |numbers|
      invariant board == g
      invariant FillTry(g, row, col, numbers, i, draws, k') == FillTry(g, row, col, numbers, 0, draws, k)
    {
      var num := numbers[i];
      if IsValidPlacement(board, row, col, num) {
        board := Place(board, row, col, num);
        PlaceShrinks(g, row, col, num);
        var sub;
        ok, sub, k' := FillBoard(board, draws, k');
        if ok {
          return true, sub, k';
        }
        board := Place(sub, row, col, 0);
        PlaceUndo(g, row, col, num);
      }
      i := i + 1;
    }
    return false, board, k';
  }

  /** Filling an empty cell leaves fewer empty cells: the fill's termination measure. */
  lemma PlaceShrinks(g: Grid, r: int, c: int, v: int)
    requires IsGrid(g) && InRange(r) && InRange(c) && g[r][c] == 0 && v != 0
    ensures |ZeroCells(Place(g, r, c, v))| < |ZeroCells(g)|
  {
    PlaceZeroCells(g, r, c, v);
    ZeroCellsMember(g, Pos(r, c));
  }

  /** Writing 0 back over a digit placed in an empty cell restores the grid (the backtracking step). */
  lemma PlaceUndo(g: Grid, r: int, c: int, v: int)
    requires IsGrid(g) && InRange(r) && InRange(c) && g[r][c] == 0
    ensures Place(Place(g, r, c, v), r, c, 0) == g
  {
    assert Place(Place(g, r, c, v), r, c, 0)[r] == g[r];
  }

  /** What a successful recursive fill after placing `v` at (`r`, `c`) gives the caller. */
  lemma FillSucceeded(g: Grid, r: int, c: int, v: int, sub: Grid)
    requires IsGrid(g) && InRange(r) && InRange(c) && g[r][c] == 0 && 1 <= v <= 9
    requires IsValidPlacement(g, r, c, v) && IsGrid(sub)
    requires Consistent(Place(g, r, c, v)) ==> IsComplete(sub)
    requires KeepsFilled(Place(g, r, c, v), sub) && FillsWithDigits(Place(g, r, c, v), sub)
    ensures Consistent(g) ==> IsComplete(sub)
    ensures KeepsFilled(g, sub) && FillsWithDigits(g, sub)
  {
    if Consistent(g) {
      PlacePreservesConsistent(g, r, c, v);
    }
    var placed := Place(g, r, c, v);
    forall r', c' | InRange(r') && InRange(c') && g[r'][c'] == 0 && sub[r'][c'] != 0
      ensures 1 <= sub[r'][c'] <= 9
    {
      if r' == r && c' == c {
        assert placed[r][c] == v;
      } else {
        assert placed[r'][c'] == 0;
      }
    }
    forall r', c' | InRange(r') && InRange(c') && g[r'][c'] != 0 ensures sub[r'][c'] == g[r'][c'] {
      assert placed[r'][c'] == g[r'][c'];
    }
  }

  /** Fills an empty grid; the source keeps whatever the fill left in the grid and ignores the flag. */
  method GenerateCompleteSudoku(draws: nat -> seq<int>) returns (ok: bool, solution: Grid)
    requires ValidDraws(draws)
    ensures IsGrid(solution)
    ensures ok ==> IsComplete(solution) && AllDigits(solution)
    ensures !ok ==> solution == EmptyGrid()
    ensures ok == Fill(EmptyGrid(), draws, 0).0 && solution == Fill(EmptyGrid(), draws, 0).1
  {
    EmptyConsistent();
    var next;
    ok, solution, next := FillBoard(EmptyGrid(), draws, 0);
    if ok {
      forall r, c | 0 <= r < SIZE && 0 <= c < SIZE ensures 1 <= solution[r][c] <= 9 {
        assert InRange(r) && InRange(c) && EmptyGrid()[r][c] == 0 && solution[r][c] != 0;
      }
    }
  }

  // ---------------------------------------------------------------------------
  // generateNewGame
  // ---------------------------------------------------------------------------

  /** The sampled positions whose cell in `g` is filled, i.e. the cells the removal loop can blank. */
  ghost function Removable(g: Grid, samples: seq<Pos>): set<Pos>
    requires IsGrid(g)
    requires forall i :: 0 <= i < |samples| ==> OnBoard(samples[i])
  {
    if |samples| == 0 then {}
    else
      var p := samples[|samples| - 1];
      assert OnBoard(p);
      Removable(g, samples[..|samples| - 1]) + (if g[p.row][p.col] != 0 then {p} else {})
  }

  /** The positions that occur in the sample stream. */
  ghost function SampleSet(samples: seq<Pos>): set<Pos> {
    set i | 0 <= i < |samples| :: samples[i]
  }

  /** On a full grid every sampled position can be blanked. */
  lemma {:induction false} RemovableFull(g: Grid, samples: seq<Pos>)
    requires IsGrid(g) && NoZero(g)
    requires forall i :: 0 <= i < |samples| ==> OnBoard(samples[i])
    ensures Removable(g, samples) == SampleSet(samples)
  {
    if |samples| > 0 {
      var n := |samples| - 1;
      RemovableFull(g, samples[..n]);
      assert SampleSet(samples) == SampleSet(samples[..n]) + {samples[n]} by {
        forall q ensures q in SampleSet(samples) <==> q in SampleSet(samples[..n]) + {samples[n]} {
          if q in SampleSet(samples) {
            var i :| 0 <= i < |samples| && samples[i] == q;
            if i < n {
              assert samples[..n][i] == q;
            }
          }
          if q in SampleSet(samples[..n]) {
            var i :| 0 <= i < n && samples[..n][i] == q;
            assert samples[i] == q;
          }
        }
      }
    }
  }

  /** The count of blanks `generateNewGame` aims for; a negative difficulty blanks nothing. */
  function Blanks(difficulty: int): nat {
    if difficulty < 0 then 0 else difficulty
  }

  /**
   * The removal loop: draw positions from `samples` until `difficulty` filled
   * cells have been blanked; a position drawn again, or already empty, is
   * skipped. The requires clause says the stream eventually offers enough
   * fillable positions; without it the source's loop does not terminate.
   */
  method RemoveCells(solution: Grid, difficulty: int, samples: seq<Pos>) returns (board: Grid)
    requires IsGrid(solution)
    requires forall i :: 0 <= i < |samples| ==> OnBoard(samples[i])
    requires difficulty <= |Removable(solution, samples)|
    ensures IsGrid(board)
    ensures |ZeroCells(board)| == |ZeroCells(solution)| + Blanks(difficulty)
    ensures ZeroCells(solution) <= ZeroCells(board)
    ensures forall r, c :: InRange(r) && InRange(c) ==> board[r][c] == solution[r][c] || board[r][c] == 0
  {
    board := solution;
    var removed := 0;
    var i := 0;
    ghost var gone: set<Pos> := {};
    RemovalStart(solution, samples);
    while removed < difficulty
      invariant Removing(solution, samples, difficulty, i, board, gone, removed)
      decreases |samples| - i
    {
      i, board, removed, gone := RemoveTurn(solution, samples, difficulty, i, board, removed, gone);
    }
    RemovalResult(solution, samples, i, board, gone);
  }

  /** The removal loop's invariant together with its counter. */
  ghost predicate Removing(solution: Grid, samples: seq<Pos>, difficulty: int, i: int, board: Grid, gone: set<Pos>, removed: int)
    requires IsGrid(solution)
    requires forall j :: 0 <= j < |samples| ==> OnBoard(samples[j])
  {
    && 0 <= i <= |samples|
    && RemovalState(solution, samples, i, board, gone)
    && removed == |gone|
    && (removed == 0 || removed <= difficulty)
  }

  /**
   * One turn of the removal loop: draw the next sample and blank its cell
   * unless it is already empty.
   */
  method RemoveTurn(solution: Grid, samples: seq<Pos>, difficulty: int, i: int, board: Grid, removed: int, ghost gone: set<Pos>)
    returns (i': int, board': Grid, removed': int, ghost gone': set<Pos>)
    requires IsGrid(solution)
    requires forall j :: 0 <= j < |samples| ==> OnBoard(samples[j])
    requires difficulty <= |Removable(solution, samples)|
    requires Removing(solution, samples, difficulty, i, board, gone, removed)
    requires removed < difficulty
    ensures Removing(solution, samples, difficulty, i', board', gone', removed')
    ensures i' == i + 1
    ensures removed' == removed || removed' == removed + 1
  {
    RemovalPending(solution, samples, i, board, gone);
    var p := samples[i];
    if board[p.row][p.col] != 0 {
      RemoveBlank(solution, samples, i, board, gone);
      assert |gone + {p}| == |gone| + 1;
      board', removed', gone' := Place(board, p.row, p.col, 0), removed + 1, gone + {p};
    } else {
      RemoveSkip(solution, samples, i, board, gone);
      board', removed', gone' := board, removed, gone;
    }
    i' := i + 1;
  }

  lemma RemovalStart(solution: Grid, samples: seq<Pos>)
    requires IsGrid(solution)
    requires forall j :: 0 <= j < |samples| ==> OnBoard(samples[j])
    ensures RemovalState(solution, samples, 0, solution, {})
  {
    assert samples[..0] == [];
  }

  /** While fewer than the available fillable positions are blanked, samples remain. */
  lemma RemovalPending(solution: Grid, samples: seq<Pos>, i: int, board: Grid, gone: set<Pos>)
    requires IsGrid(solution)
    requires forall j :: 0 <= j < |samples| ==> OnBoard(samples[j])
    requires 0 <= i <= |samples|
    requires RemovalState(solution, samples, i, board, gone)
    requires |gone| < |Removable(solution, samples)|
    ensures i < |samples|
  {
    if i == |samples| {
      WholePrefix(samples);
    }
  }

  lemma WholePrefix<T>(s: seq<T>)
    ensures s[..|s|] == s
  {
  }

  /** What the removal loop's invariant says about the grid it leaves. */
  lemma RemovalResult(solution: Grid, samples: seq<Pos>, i: int, board: Grid, gone: set<Pos>)
    requires IsGrid(solution)
    requires forall j :: 0 <= j < |samples| ==> OnBoard(samples[j])
    requires 0 <= i <= |samples|
    requires RemovalState(solution, samples, i, board, gone)
    ensures IsGrid(board)
    ensures |ZeroCells(board)| == |ZeroCells(solution)| + |gone|
    ensures ZeroCells(solution) <= ZeroCells(board)
    ensures forall r, c :: InRange(r) && InRange(c) ==> board[r][c] == solution[r][c] || board[r][c] == 0
  {
  }

  /**
   * The removal loop's invariant after `i` samples: the blanked cells `gone`
   * are exactly the fillable sampled positions so far, on top of the cells
   * that were already empty, and every other cell keeps its solution value.
   */
  ghost predicate RemovalState(solution: Grid, samples: seq<Pos>, i: int, board: Grid, gone: set<Pos>)
    requires IsGrid(solution)
    requires forall j :: 0 <= j < |samples| ==> OnBoard(samples[j])
    requires 0 <= i <= |samples|
  {
    && IsGrid(board)
    && gone == Removable(solution, samples[..i])
    && ZeroCells(board) == ZeroCells(solution) + gone
    && ZeroCells(solution) !! gone
    && forall r, c :: InRange(r) && InRange(c) ==> board[r][c] == solution[r][c] || board[r][c] == 0
  }

  /** A turn whose sampled cell is still filled blanks it and keeps the loop's invariant. */
  lemma RemoveBlank(solution: Grid, samples: seq<Pos>, i: int, board: Grid, gone: set<Pos>)
    requires IsGrid(solution)
    requires forall j :: 0 <= j < |samples| ==> OnBoard(samples[j])
    requires 0 <= i < |samples|
    requires RemovalState(solution, samples, i, board, gone)
    requires board[samples[i].row][samples[i].col] != 0
    ensures samples[i] !in gone
    ensures RemovalState(solution, samples, i + 1, Place(board, samples[i].row, samples[i].col, 0), gone + {samples[i]})
  {
    var p := samples[i];
    assert samples[..i + 1][..i] == samples[..i];
    assert samples[..i + 1][i] == p;
    ZeroCellsMember(board, p);
    ZeroCellsMember(solution, p);
    PlaceZeroCells(board, p.row, p.col, 0);
  }

  /** A turn whose sampled cell is already blank changes nothing and keeps the loop's invariant. */
  lemma RemoveSkip(solution: Grid, samples: seq<Pos>, i: int, board: Grid, gone: set<Pos>)
    requires IsGrid(solution)
    requires forall j :: 0 <= j < |samples| ==> OnBoard(samples[j])
    requires 0 <= i < |samples|
    requires RemovalState(solution, samples, i, board, gone)
    requires board[samples[i].row][samples[i].col] == 0
    ensures RemovalState(solution, samples, i + 1, board, gone)
  {
    var p := samples[i];
    assert samples[..i + 1][..i] == samples[..i];
    assert samples[..i + 1][i] == p;
    ZeroCellsMember(board, p);
    ZeroCellsMember(solution, p);
  }

  /** The cells of a generated puzzle: filled cells are the initial clues; nothing is marked or noted. */
  function ToCells(g: Grid): (b: Board)
    requires IsGrid(g)
    ensures IsBoard(b) && Values(b) == g
    ensures forall r, c :: InRange(r) && InRange(c) ==>
      b[r][c].row == r && b[r][c].col == c && (b[r][c].isInitial <==> g[r][c] != 0)
      && !b[r][c].isError && b[r][c].notes == {}
  {
    var b := seq(SIZE, r requires 0 <= r < SIZE => seq(SIZE, c requires 0 <= c < SIZE => NewCell(r, c, g[r][c], g[r][c] != 0)));
    assert forall r :: 0 <= r < SIZE ==> Values(b)[r] == g[r];
    b
  }

  /**
   * A new puzzle: a filled grid with `difficulty` cells blanked. `None` stands
   * for the run in which the fill reported failure and the removal loop,
   * finding no filled cell to blank, would never end; that happens exactly
   * when `Fill` fails on the empty grid and some cell is to be blanked.
   * `solution` is the grid the fill left, the one the puzzle was cut from.
   */
  method GenerateNewGame(difficulty: int, draws: nat -> seq<int>, samples: seq<Pos>)
    returns (r: Option<Board>, ghost solution: Grid)
    requires ValidDraws(draws)
    requires forall i :: 0 <= i < |samples| ==> OnBoard(samples[i])
    requires difficulty <= |SampleSet(samples)|
    ensures IsGrid(solution)
    ensures r.None? <==> !Fill(EmptyGrid(), draws, 0).0 && difficulty > 0
    ensures solution == Fill(EmptyGrid(), draws, 0).1
    ensures Fill(EmptyGrid(), draws, 0).0 ==> IsComplete(solution) && AllDigits(solution)
    ensures r.Some? ==> IsBoard(r.value)
    ensures r.Some? ==> (IsComplete(solution) && AllDigits(solution)) || (solution == EmptyGrid() && difficulty <= 0)
    ensures r.Some? && IsComplete(solution) ==> |ZeroCells(Values(r.value))| == Blanks(difficulty)
    ensures r.Some? ==> forall row, col :: InRange(row) && InRange(col) ==>
      var cell := r.value[row][col];
      (cell.value == 0 || cell.value == solution[row][col])
      && cell.row == row && cell.col == col
      && (cell.isInitial <==> cell.value != 0) && !cell.isError && cell.notes == {}
  {
    var ok, full := GenerateCompleteSudoku(draws);
    solution := full;
    if !ok && difficulty > 0 {
      return None, solution;
    }
    var board := CutPuzzle(full, difficulty, samples);
    return Some(board), solution;
  }

  /**
   * The second half of `GenerateNewGame`: blanks `difficulty` cells of the
   * grid the fill left and turns the result into cells. On a complete grid
   * every sampled cell is still filled when first drawn; on the empty grid
   * nothing is blanked because nothing is asked for.
   */
  method CutPuzzle(full: Grid, difficulty: int, samples: seq<Pos>) returns (b: Board)
    requires IsGrid(full) && (IsComplete(full) || (full == EmptyGrid() && difficulty <= 0))
    requires forall i :: 0 <= i < |samples| ==> OnBoard(samples[i])
    requires difficulty <= |SampleSet(samples)|
    ensures IsBoard(b)
    ensures IsComplete(full) ==> |ZeroCells(Values(b))| == Blanks(difficulty)
    ensures forall row, col :: InRange(row) && InRange(col) ==>
      var cell := b[row][col];
      (cell.value == 0 || cell.value == full[row][col])
      && cell.row == row && cell.col == col
      && (cell.isInitial <==> cell.value != 0) && !cell.isError && cell.notes == {}
  {
    if IsComplete(full) {
      RemovableFull(full, samples);
      NoZeroCells(full);
    }
    var board := RemoveCells(full, difficulty, samples);
    b := ToCells(board);
  }
}

=== FILE: models.dfy ===
/**
 * The data model of the Sudoku engine: cells, boards and the game-state
 * snapshot, with the defaults the data classes declare, plus the few
 * integer conventions the engine relies on (board coordinates, Kotlin's
 * 32-bit `Int` arithmetic).
 */
module SudokuModels {

  /** Side length of the board; every row, column and box holds this many cells. */
  const SIZE := 9

  /** Kotlin `Int` bounds. */
  const INT_MIN := -0x8000_0000
  const INT_MAX := 0x7fff_ffff

  predicate IsInt(x: int) {
    INT_MIN <= x <= INT_MAX
  }

  /** The value a Kotlin `Int` expression of mathematical value `x` evaluates to (two's-complement wrap-around). */
  function WrapInt(x: int): (r: int)
    ensures IsInt(r)
    ensures IsInt(x) ==> r == x
    ensures (r - x) % 0x1_0000_0000 == 0
  {
    (x - INT_MIN) % 0x1_0000_0000 + INT_MIN
  }

  /** A valid board coordinate. */
  predicate InRange(i: int) {
    0 <= i < SIZE
  }

  /** A board position. */
  datatype Pos = Pos(row: int, col: int)

  predicate OnBoard(p: Pos) {
    InRange(p.row) && InRange(p.col)
  }

  /**
   * One square of the board. `value` 0 means empty; `notes` holds the
   * candidate digits the player has pencilled in.
   */
  datatype Cell = Cell(row: int, col: int, value: int, isInitial: bool, isError: bool, notes: set<int>)

  /** A cell built with the data class's defaults: no error flag and no notes. */
  function NewCell(row: int, col: int, value: int, isInitial: bool): (c: Cell)
    ensures !c.isError && c.notes == {}
    ensures c.row == row && c.col == col && c.value == value && c.isInitial == isInitial
  {
    Cell(row, col, value, isInitial, false, {})
  }

  /** The digits alone, as the engine's checks see the board. */
  type Grid = seq<seq<int>>

  /** The board of cells. */
  type Board = seq<seq<Cell>>

  /** Exactly nine rows of exactly nine values. */
  predicate IsGrid(g: Grid) {
    |g| == SIZE && forall r :: 0 <= r < |g| ==> |g[r]| == SIZE
  }

  /** Exactly nine rows of exactly nine cells. */
  predicate IsBoard(b: Board) {
    |b| == SIZE && forall r :: 0 <= r < |b| ==> |b[r]| == SIZE
  }

  /** The value grid of a board (the source's `board.map { row -> row.map { it.value } }`). */
  function Values(b: Board): (g: Grid)
    requires IsBoard(b)
    ensures IsGrid(g)
    ensures forall r, c :: InRange(r) && InRange(c) ==> g[r][c] == b[r][c].value
  {
    seq(SIZE, r requires 0 <= r < SIZE => seq(SIZE, c requires 0 <= c < SIZE => b[r][c].value))
  }

  /**
   * One immutable snapshot of a game in progress. `highlightedNumber` 0 means
   * no highlight; `emptyCellsCount` is the difficulty the puzzle was
   * generated with; `elapsedTime` is in seconds.
   */
  datatype GameState = GameState(
    board: Board,
    selectedRow: int,
    selectedCol: int,
    elapsedTime: int,
    isComplete: bool,
    mistakes: int,
    highlightedNumber: int,
    emptyCellsCount: int)

  /** The default difficulty (medium: 40 blanks). */
  const DEFAULT_EMPTY_CELLS := 40

  /** A snapshot built with the data class's defaults around a board. */
  function NewGameState(board: Board): (s: GameState)
    ensures s.board == board
    ensures s.selectedRow == 0 && s.selectedCol == 0
    ensures s.elapsedTime == 0 && !s.isComplete && s.mistakes == 0
    ensures s.highlightedNumber == 0 && s.emptyCellsCount == 40
  {
    GameState(board, 0, 0, 0, false, 0, 0, DEFAULT_EMPTY_CELLS)
  }

  /** A snapshot the engine's operations can index without going out of bounds. */
  predicate ValidGame(s: GameState) {
    IsBoard(s.board) && InRange(s.selectedRow) && InRange(s.selectedCol)
  }
}

=== FILE: rules.dfy ===
/**
 * The placement rules of Sudoku as the engine checks them: the candidate
 * test used by the generator and by notes, the per-cell duplicate test that
 * drives error marking, and the whole-board completion test.
 */
module SudokuRules {
  import opened SudokuModels

  // ---------------------------------------------------------------------------
  // Units: rows, columns and boxes, and which cells share one
  // ---------------------------------------------------------------------------

  /** First row (or column) of the box holding row (or column) `i`: `(i / 3) * 3`. */
  function BoxStart(i: int): (s: int)
    requires InRange(i)
    ensures s in {0, 3, 6} && s <= i < s + 3
  {
    (i / 3) * 3
  }

  /** The nine values of row `r`, left to right. */
  function RowOf(g: Grid, r: int): (s: seq<int>)
    requires IsGrid(g) && InRange(r)
    ensures |s| == SIZE && forall c :: InRange(c) ==> s[c] == g[r][c]
  {
    g[r]
  }

  /** The nine values of column `c`, top to bottom. */
  function ColOf(g: Grid, c: int): (s: seq<int>)
    requires IsGrid(g) && InRange(c)
    ensures |s| == SIZE && forall r :: InRange(r) ==> s[r] == g[r][c]
  {
    seq(SIZE, r requires 0 <= r < SIZE => g[r][c])
  }

  /** The nine values of the box whose top-left cell is (`br`, `bc`), in row-major order. */
  function BoxAt(g: Grid, br: int, bc: int): (s: seq<int>)
    requires IsGrid(g) && br in {0, 3, 6} && bc in {0, 3, 6}
    ensures |s| == SIZE
    ensures forall k :: 0 <= k < SIZE ==> s[k] == g[br + k / 3][bc + k % 3]
  {
    seq(SIZE, k requires 0 <= k < SIZE => g[br + k / 3][bc + k % 3])
  }

  /** Two positions lie in the same 3x3 box (the test used when pruning notes). */
  predicate SameBox(r1: int, c1: int, r2: int, c2: int) {
    r1 / 3 == r2 / 3 && c1 / 3 == c2 / 3
  }

  /** Two positions share a row, a column or a box. A position is its own peer. */
  predicate Peers(r1: int, c1: int, r2: int, c2: int) {
    r1 == r2 || c1 == c2 || SameBox(r1, c1, r2, c2)
  }

  /** Index arithmetic tying a position to its slot in the box that holds it. */
  lemma BoxSlot(r: int, c: int)
    requires InRange(r) && InRange(c)
    ensures var k := (r % 3) * 3 + c % 3;
      0 <= k < SIZE && BoxStart(r) + k / 3 == r && BoxStart(c) + k % 3 == c
  {
  }

  /** Every slot of a box lies in that box. */
  lemma BoxSlotInBox(br: int, bc: int, k: int)
    requires br in {0, 3, 6} && bc in {0, 3, 6} && 0 <= k < SIZE
    ensures InRange(br + k / 3) && InRange(bc + k % 3)
    ensures (br + k / 3) / 3 == br / 3 && (bc + k % 3) / 3 == bc / 3
  {
  }

  /** Slot `k` of the box holding (`row`, `col`) is a cell of that box. */
  lemma BoxSlotCell(g: Grid, row: int, col: int, k: int)
    requires IsGrid(g) && InRange(row) && InRange(col) && 0 <= k < SIZE
    ensures InRange(BoxStart(row) + k / 3) && InRange(BoxStart(col) + k % 3)
    ensures SameBox(row, col, BoxStart(row) + k / 3, BoxStart(col) + k % 3)
    ensures BoxAt(g, BoxStart(row), BoxStart(col))[k] == g[BoxStart(row) + k / 3][BoxStart(col) + k % 3]
    ensures k == (row % 3) * 3 + col % 3 <==> BoxStart(row) + k / 3 == row && BoxStart(col) + k % 3 == col
  {
    BoxSlotInBox(BoxStart(row), BoxStart(col), k);
    BoxSlot(row, col);
  }

  /** A cell of the box holding (`row`, `col`) sits in the slot `(r % 3) * 3 + c % 3`. */
  lemma CellBoxSlot(g: Grid, row: int, col: int, r: int, c: int)
    requires IsGrid(g) && InRange(row) && InRange(col) && InRange(r) && InRange(c)
    requires SameBox(row, col, r, c)
    ensures var k := (r % 3) * 3 + c % 3;
      0 <= k < SIZE && BoxAt(g, BoxStart(row), BoxStart(col))[k] == g[r][c]
      && (k == (row % 3) * 3 + col % 3 <==> r == row && c == col)
  {
    BoxSlot(r, c);
    BoxSlot(row, col);
    assert BoxStart(r) == BoxStart(row) && BoxStart(c) == BoxStart(col);
  }

  // ---------------------------------------------------------------------------
  // isValidPlacement
  // ---------------------------------------------------------------------------

  /**
   * `num` may be placed at (`row`, `col`): it occurs nowhere in the row, the
   * column or the box. The cell itself is scanned too, so a filled cell
   * never admits any digit equal to its own value.
   */
  function IsValidPlacement(g: Grid, row: int, col: int, num: int): (ok: bool)
    requires IsGrid(g) && InRange(row) && InRange(col)
    ensures ok <==> forall r, c :: InRange(r) && InRange(c) && Peers(row, col, r, c) ==> g[r][c] != num
  {
    PlacementScan(g, row, col, num);
    num !in RowOf(g, row) && num !in ColOf(g, col) && num !in BoxAt(g, BoxStart(row), BoxStart(col))
  }

  lemma PlacementScan(g: Grid, row: int, col: int, num: int)
    requires IsGrid(g) && InRange(row) && InRange(col)
    ensures (num in RowOf(g, row) || num in ColOf(g, col) || num in BoxAt(g, BoxStart(row), BoxStart(col)))
        <==> exists r, c :: InRange(r) && InRange(c) && Peers(row, col, r, c) && g[r][c] == num
  {
    if num in BoxAt(g, BoxStart(row), BoxStart(col)) {
      var k :| 0 <= k < SIZE && BoxAt(g, BoxStart(row), BoxStart(col))[k] == num;
      BoxSlotCell(g, row, col, k);
      assert Peers(row, col, BoxStart(row) + k / 3, BoxStart(col) + k % 3);
    }
    if num in RowOf(g, row) {
      var c :| 0 <= c < SIZE && RowOf(g, row)[c] == num;
      assert Peers(row, col, row, c);
    }
    if num in ColOf(g, col) {
      var r :| 0 <= r < SIZE && ColOf(g, col)[r] == num;
      assert Peers(row, col, r, col);
    }
    if exists r, c :: InRange(r) && InRange(c) && Peers(row, col, r, c) && g[r][c] == num {
      var r, c :| InRange(r) && InRange(c) && Peers(row, col, r, c) && g[r][c] == num;
      if r == row {
        assert RowOf(g, row)[c] == num;
      } else if c == col {
        assert ColOf(g, col)[r] == num;
      } else {
        CellBoxSlot(g, row, col, r, c);
      }
    }
  }

  // ---------------------------------------------------------------------------
  // hasConflict
  // ---------------------------------------------------------------------------

  /** How many times `v` occurs in `s`. */
  function Count(s: seq<int>, v: int): (n: nat)
    ensures n <= |s|
    ensures n == 0 <==> v !in s
  {
    if |s| == 0 then 0 else (if s[0] == v then 1 else 0) + Count(s[1..], v)
  }

  /** A value seen at index `i` occurs at least twice exactly when it occurs at some other index. */
  lemma {:induction false} CountTwice(s: seq<int>, i: int)
    requires 0 <= i < |s|
    ensures Count(s, s[i]) > 1 <==> exists j :: 0 <= j < |s| && j != i && s[j] == s[i]
  {
    if i == 0 {
      if Count(s[1..], s[0]) > 0 {
        var j :| 0 <= j < |s[1..]| && s[1..][j] == s[0];
        assert s[j + 1] == s[0];
      }
      if exists j :: 0 <= j < |s| && j != 0 && s[j] == s[0] {
        var j :| 0 <= j < |s| && j != 0 && s[j] == s[0];
        assert s[1..][j - 1] == s[0];
      }
    } else {
      CountTwice(s[1..], i - 1);
      assert s[1..][i - 1] == s[i];
      if exists j :: 0 <= j < |s| && j != i && s[j] == s[i] {
        var j :| 0 <= j < |s| && j != i && s[j] == s[i];
        if j != 0 {
          assert s[1..][j - 1] == s[i];
        }
      }
      if exists j :: 0 <= j < |s[1..]| && j != i - 1 && s[1..][j] == s[i] {
        var j :| 0 <= j < |s[1..]| && j != i - 1 && s[1..][j] == s[i];
        assert s[j + 1] == s[i];
      }
    }
  }

  /** Another cell sharing a unit with (`row`, `col`) holds the same value. */
  ghost predicate DuplicatedAt(g: Grid, row: int, col: int)
    requires IsGrid(g) && InRange(row) && InRange(col)
  {
    exists r, c :: InRange(r) && InRange(c) && (r != row || c != col) && Peers(row, col, r, c)
      && g[r][c] == g[row][col]
  }

  /**
   * The cell at (`row`, `col`) is in error: it is filled and its value occurs
   * more than once (counting itself) in its row, its column or its box.
   */
  function HasConflict(g: Grid, row: int, col: int): (b: bool)
    requires IsGrid(g) && InRange(row) && InRange(col)
    ensures g[row][col] == 0 ==> !b
    ensures b <==> g[row][col] != 0 && DuplicatedAt(g, row, col)
  {
    var value := g[row][col];
    ConflictScan(g, row, col);
    if value == 0 then false
    else
      Count(RowOf(g, row), value) > 1
      || Count(ColOf(g, col), value) > 1
      || Count(BoxAt(g, BoxStart(row), BoxStart(col)), value) > 1
  }

  lemma ConflictScan(g: Grid, row: int, col: int)
    requires IsGrid(g) && InRange(row) && InRange(col)
    ensures var v := g[row][col];
      (Count(RowOf(g, row), v) > 1 || Count(ColOf(g, col), v) > 1
       || Count(BoxAt(g, BoxStart(row), BoxStart(col)), v) > 1)
      <==> DuplicatedAt(g, row, col)
  {
    RowRepeat(g, row, col);
    ColRepeat(g, row, col);
    BoxRepeat(g, row, col);
    if DuplicatedAt(g, row, col) {
      RepeatSeen(g, row, col);
    }
  }

  /** A repeat of the cell's value in its row is a duplicate. */
  lemma RowRepeat(g: Grid, row: int, col: int)
    requires IsGrid(g) && InRange(row) && InRange(col)
    ensures Count(RowOf(g, row), g[row][col]) > 1 ==> DuplicatedAt(g, row, col)
  {
    var v := g[row][col];
    CountTwice(RowOf(g, row), col);
    if Count(RowOf(g, row), v) > 1 {
      var c :| 0 <= c < SIZE && c != col && RowOf(g, row)[c] == v;
      assert Peers(row, col, row, c);
    }
  }

  /** A repeat of the cell's value in its column is a duplicate. */
  lemma ColRepeat(g: Grid, row: int, col: int)
    requires IsGrid(g) && InRange(row) && InRange(col)
    ensures Count(ColOf(g, col), g[row][col]) > 1 ==> DuplicatedAt(g, row, col)
  {
    var v := g[row][col];
    CountTwice(ColOf(g, col), row);
    if Count(ColOf(g, col), v) > 1 {
      var r :| 0 <= r < SIZE && r != row && ColOf(g, col)[r] == v;
      assert Peers(row, col, r, col);
    }
  }

  /** A repeat of the cell's value in its box is a duplicate. */
  lemma BoxRepeat(g: Grid, row: int, col: int)
    requires IsGrid(g) && InRange(row) && InRange(col)
    ensures Count(BoxAt(g, BoxStart(row), BoxStart(col)), g[row][col]) > 1 ==> DuplicatedAt(g, row, col)
  {
    var v := g[row][col];
    var box := BoxAt(g, BoxStart(row), BoxStart(col));
    var k0 := (row % 3) * 3 + col % 3;
    CellBoxSlot(g, row, col, row, col);
    CountTwice(box, k0);
    if Count(box, v) > 1 {
      var k :| 0 <= k < SIZE && k != k0 && box[k] == v;
      BoxSlotCell(g, row, col, k);
      assert Peers(row, col, BoxStart(row) + k / 3, BoxStart(col) + k % 3);
    }
  }

  /** A duplicate shows up as a repeat in the row, the column or the box. */
  lemma RepeatSeen(g: Grid, row: int, col: int)
    requires IsGrid(g) && InRange(row) && InRange(col)
    requires DuplicatedAt(g, row, col)
    ensures var v := g[row][col];
      Count(RowOf(g, row), v) > 1 || Count(ColOf(g, col), v) > 1
      || Count(BoxAt(g, BoxStart(row), BoxStart(col)), v) > 1
  {
    var v := g[row][col];
    var r, c :| InRange(r) && InRange(c) && (r != row || c != col) && Peers(row, col, r, c) && g[r][c] == v;
    if r == row {
      CountTwice(RowOf(g, row), col);
      assert RowOf(g, row)[c] == v;
    } else if c == col {
      CountTwice(ColOf(g, col), row);
      assert ColOf(g, col)[r] == v;
    } else {
      var k0 := (row % 3) * 3 + col % 3;
      CellBoxSlot(g, row, col, row, col);
      CellBoxSlot(g, row, col, r, c);
      CountTwice(BoxAt(g, BoxStart(row), BoxStart(col)), k0);
    }
  }

  // ---------------------------------------------------------------------------
  // isComplete
  // ---------------------------------------------------------------------------

  /** The set of a sequence's elements (Kotlin's `toSet()`). */
  function ElemSet(s: seq<int>): (r: set<int>)
    ensures forall x :: x in r <==> x in s
  {
    if |s| == 0 then {} else {s[0]} + ElemSet(s[1..])
  }

  /** No value occurs twice. */
  predicate Distinct(s: seq<int>) {
    forall i, j :: 0 <= i < j < |s| ==> s[i] != s[j]
  }

  /** A sequence has as many distinct elements as it is long exactly when no element repeats. */
  lemma {:induction false} ElemSetSize(s: seq<int>)
    ensures |ElemSet(s)| <= |s|
    ensures |ElemSet(s)| == |s| <==> Distinct(s)
  {
    if |s| > 0 {
      ElemSetSize(s[1..]);
      DistinctCons(s);
      assert ElemSet(s) == {s[0]} + ElemSet(s[1..]);
      if s[0] in s[1..] {
        assert ElemSet(s) == ElemSet(s[1..]);
      } else {
        assert s[0] !in ElemSet(s[1..]);
      }
    }
  }

  lemma DistinctCons(s: seq<int>)
    requires |s| > 0
    ensures Distinct(s) <==> s[0] !in s[1..] && Distinct(s[1..])
  {
    if s[0] !in s[1..] && Distinct(s[1..]) {
      forall i, j | 0 <= i < j < |s| ensures s[i] != s[j] {
        if i > 0 {
          assert s[i] == s[1..][i - 1] && s[j] == s[1..][j - 1];
        } else {
          assert s[j] == s[1..][j - 1];
        }
      }
    }
    if Distinct(s) {
      forall i, j | 0 <= i < j < |s[1..]| ensures s[1..][i] != s[1..][j] {
        assert s[1..][i] == s[i + 1] && s[1..][j] == s[j + 1];
      }
    }
    if s[0] in s[1..] {
      var j :| 0 <= j < |s[1..]| && s[1..][j] == s[0];
      assert s[j + 1] == s[0];
    }
  }

  /** No cell holds 0. */
  predicate NoZero(g: Grid)
    requires IsGrid(g)
  {
    forall r, c :: 0 <= r < SIZE && 0 <= c < SIZE ==> g[r][c] != 0
  }

  /** The `i`-th box in the order the completion check visits them. */
  function BoxNo(g: Grid, i: int): (s: seq<int>)
    requires IsGrid(g) && InRange(i)
    ensures |s| == SIZE
  {
    BoxAt(g, (i / 3) * 3, (i % 3) * 3)
  }

  /**
   * The board is solved: every cell is filled and every row, column and box
   * holds nine different values.
   */
  function IsComplete(g: Grid): (ok: bool)
    requires IsGrid(g)
    ensures ok ==> NoZero(g)
    ensures ok <==> NoZero(g) && forall i :: InRange(i) ==> Distinct(RowOf(g, i)) && Distinct(ColOf(g, i)) && Distinct(BoxNo(g, i))
  {
    CompleteScan(g);
    NoZero(g)
    && forall i :: 0 <= i < SIZE ==>
      |ElemSet(RowOf(g, i))| == 9 && |ElemSet(ColOf(g, i))| == 9 && |ElemSet(BoxNo(g, i))| == 9
  }

  lemma CompleteScan(g: Grid)
    requires IsGrid(g)
    ensures forall i :: 0 <= i < SIZE ==>
      (|ElemSet(RowOf(g, i))| == 9 <==> Distinct(RowOf(g, i)))
      && (|ElemSet(ColOf(g, i))| == 9 <==> Distinct(ColOf(g, i)))
      && (|ElemSet(BoxNo(g, i))| == 9 <==> Distinct(BoxNo(g, i)))
  {
    forall i | 0 <= i < SIZE ensures |ElemSet(RowOf(g, i))| == 9 <==> Distinct(RowOf(g, i)) {
      ElemSetSize(RowOf(g, i));
    }
    forall i | 0 <= i < SIZE ensures |ElemSet(ColOf(g, i))| == 9 <==> Distinct(ColOf(g, i)) {
      ElemSetSize(ColOf(g, i));
    }
    forall i | 0 <= i < SIZE ensures |ElemSet(BoxNo(g, i))| == 9 <==> Distinct(BoxNo(g, i)) {
      ElemSetSize(BoxNo(g, i));
    }
  }

  /** Cells (`r1`, `c1`) and (`r2`, `c2`), if two different cells of one unit, do not share a nonzero value. */
  ghost predicate PairOk(g: Grid, r1: int, c1: int, r2: int, c2: int)
    requires IsGrid(g)
  {
    InRange(r1) && InRange(c1) && InRange(r2) && InRange(c2)
    && (r1 != r2 || c1 != c2) && Peers(r1, c1, r2, c2) && g[r1][c1] != 0
    ==> g[r1][c1] != g[r2][c2]
  }

  /** No two different cells of one unit hold the same nonzero value. */
  ghost predicate Consistent(g: Grid)
    requires IsGrid(g)
  {
    forall r1, c1, r2, c2 :: PairOk(g, r1, c1, r2, c2)
  }

  /** A board is conflict-free exactly when no cell reports a conflict. */
  lemma ConsistentIffNoConflict(g: Grid)
    requires IsGrid(g)
    ensures Consistent(g) <==> forall r, c :: InRange(r) && InRange(c) ==> !HasConflict(g, r, c)
  {
    if !Consistent(g) {
      var r1, c1, r2, c2 :| !PairOk(g, r1, c1, r2, c2);
      assert HasConflict(g, r1, c1);
    }
    forall r, c | InRange(r) && InRange(c) && HasConflict(g, r, c) ensures !Consistent(g) {
      var r2, c2 :| InRange(r2) && InRange(c2) && (r2 != r || c2 != c) && Peers(r, c, r2, c2)
        && g[r2][c2] == g[r][c];
      assert !PairOk(g, r, c, r2, c2);
    }
  }

  /** The completion check's box `(r / 3) * 3 + c / 3` is the box holding (`r`, `c`). */
  lemma BoxNoOf(r: int, c: int)
    requires InRange(r) && InRange(c)
    ensures var i := (r / 3) * 3 + c / 3;
      InRange(i) && (i / 3) * 3 == BoxStart(r) && (i % 3) * 3 == BoxStart(c)
  {
  }

  /** On a full, conflict-free board every unit is free of repeats. */
  lemma UnitsDistinct(g: Grid, i: int)
    requires IsGrid(g) && NoZero(g) && Consistent(g) && InRange(i)
    ensures Distinct(RowOf(g, i)) && Distinct(ColOf(g, i)) && Distinct(BoxNo(g, i))
  {
    RowDistinct(g, i);
    ColDistinct(g, i);
    BoxDistinct(g, i);
  }

  lemma RowDistinct(g: Grid, i: int)
    requires IsGrid(g) && NoZero(g) && Consistent(g) && InRange(i)
    ensures Distinct(RowOf(g, i))
  {
    forall j, k | 0 <= j < k < SIZE ensures RowOf(g, i)[j] != RowOf(g, i)[k] {
      ConsistentPair(g, i, j, i, k);
    }
  }

  lemma ColDistinct(g: Grid, i: int)
    requires IsGrid(g) && NoZero(g) && Consistent(g) && InRange(i)
    ensures Distinct(ColOf(g, i))
  {
    forall j, k | 0 <= j < k < SIZE ensures ColOf(g, i)[j] != ColOf(g, i)[k] {
      ConsistentPair(g, j, i, k, i);
    }
  }

  lemma BoxDistinct(g: Grid, i: int)
    requires IsGrid(g) && NoZero(g) && Consistent(g) && InRange(i)
    ensures Distinct(BoxNo(g, i))
  {
    BoxCorner(i);
    CornerBoxDistinct(g, (i / 3) * 3, (i % 3) * 3);
  }

  lemma CornerBoxDistinct(g: Grid, br: int, bc: int)
    requires IsGrid(g) && NoZero(g) && Consistent(g) && br in {0, 3, 6} && bc in {0, 3, 6}
    ensures Distinct(BoxAt(g, br, bc))
  {
    var s := BoxAt(g, br, bc);
    forall j, k | 0 <= j < k < SIZE ensures s[j] != s[k] {
      BoxSlotsDiffer(g, br, bc, j, k);
    }
  }

  lemma BoxSlotsDiffer(g: Grid, br: int, bc: int, j: int, k: int)
    requires IsGrid(g) && NoZero(g) && Consistent(g) && br in {0, 3, 6} && bc in {0, 3, 6}
    requires 0 <= j < SIZE && 0 <= k < SIZE && j != k
    ensures g[br + j / 3][bc + j % 3] != g[br + k / 3][bc + k % 3]
  {
    BoxPair(br, bc, j, k);
    ConsistentPair(g, br + j / 3, bc + j % 3, br + k / 3, bc + k % 3);
  }

  /** The top-left corner of box number `i` (boxes numbered row by row). */
  lemma BoxCorner(i: int)
    requires InRange(i)
    ensures (i / 3) * 3 in {0, 3, 6} && (i % 3) * 3 in {0, 3, 6}
  {
    if i < 3 {
    } else if i < 6 {
    } else {
    }
  }

  /** The defining property of a conflict-free board, for one pair of cells. */
  lemma ConsistentPair(g: Grid, r1: int, c1: int, r2: int, c2: int)
    requires IsGrid(g) && NoZero(g) && Consistent(g)
    requires InRange(r1) && InRange(c1) && InRange(r2) && InRange(c2)
    requires (r1 != r2 || c1 != c2) && Peers(r1, c1, r2, c2)
    ensures g[r1][c1] != g[r2][c2]
  {
    assert PairOk(g, r1, c1, r2, c2);
  }

  /** Two different slots of one box are two different cells of that box. */
  lemma BoxPair(br: int, bc: int, j: int, k: int)
    requires br in {0, 3, 6} && bc in {0, 3, 6} && 0 <= j < SIZE && 0 <= k < SIZE && j != k
    ensures InRange(br + j / 3) && InRange(bc + j % 3) && InRange(br + k / 3) && InRange(bc + k % 3)
    ensures Peers(br + j / 3, bc + j % 3, br + k / 3, bc + k % 3)
    ensures br + j / 3 != br + k / 3 || bc + j % 3 != bc + k % 3
  {
    SlotParts(j);
    SlotParts(k);
    InBox(br, j / 3);
    InBox(bc, j % 3);
    InBox(br, k / 3);
    InBox(bc, k % 3);
  }

  /** A slot number splits into its row and column within the box. */
  lemma SlotParts(j: int)
    requires 0 <= j < SIZE
    ensures 0 <= j / 3 < 3 && 0 <= j % 3 < 3 && j == 3 * (j / 3) + j % 3
  {
  }

  /** An offset of less than three from a box corner stays in that box. */
  lemma InBox(b: int, d: int)
    requires b in {0, 3, 6} && 0 <= d < 3
    ensures InRange(b + d) && (b + d) / 3 == b / 3
  {
    if b == 0 {
    } else if b == 3 {
    } else {
    }
  }

  /** Two different cells of one unit of a completed board hold different values. */
  lemma CompletePairDiffers(g: Grid, r1: int, c1: int, r2: int, c2: int)
    requires IsGrid(g) && IsComplete(g)
    requires InRange(r1) && InRange(c1) && InRange(r2) && InRange(c2)
    requires (r1 != r2 || c1 != c2) && Peers(r1, c1, r2, c2)
    ensures g[r1][c1] != g[r2][c2]
  {
    if r1 == r2 {
      DistinctAt(RowOf(g, r1), c1, c2);
    } else if c1 == c2 {
      DistinctAt(ColOf(g, c1), r1, r2);
    } else {
      var i := (r1 / 3) * 3 + c1 / 3;
      BoxNoOf(r1, c1);
      CellBoxSlot(g, r1, c1, r1, c1);
      CellBoxSlot(g, r1, c1, r2, c2);
      DistinctAt(BoxNo(g, i), (r1 % 3) * 3 + c1 % 3, (r2 % 3) * 3 + c2 % 3);
    }
  }

  /** Distinct units and a full board give a conflict-free board, and back. */
  lemma CompleteIffConsistent(g: Grid)
    requires IsGrid(g)
    ensures IsComplete(g) <==> NoZero(g) && Consistent(g)
  {
    if NoZero(g) && Consistent(g) {
      forall i | InRange(i) ensures Distinct(RowOf(g, i)) && Distinct(ColOf(g, i)) && Distinct(BoxNo(g, i)) {
        UnitsDistinct(g, i);
      }
    }
    if IsComplete(g) {
      forall r1, c1, r2, c2 ensures PairOk(g, r1, c1, r2, c2) {
        if InRange(r1) && InRange(c1) && InRange(r2) && InRange(c2)
          && (r1 != r2 || c1 != c2) && Peers(r1, c1, r2, c2)
        {
          CompletePairDiffers(g, r1, c1, r2, c2);
        }
      }
    }
  }

  lemma DistinctAt(s: seq<int>, i: int, j: int)
    requires Distinct(s) && 0 <= i < |s| && 0 <= j < |s| && i != j
    ensures s[i] != s[j]
  {
    if j < i {
      assert s[j] != s[i];
    }
  }

  /**
   * On any board, completion is the same as "every cell filled and no cell
   * in conflict": the error marks and the completion flag never disagree.
   */
  lemma CompleteIffNoConflict(g: Grid)
    requires IsGrid(g)
    ensures IsComplete(g) <==> NoZero(g) && forall r, c :: InRange(r) && InRange(c) ==> !HasConflict(g, r, c)
  {
    CompleteIffConsistent(g);
    ConsistentIffNoConflict(g);
  }

  /** All values are digits 1-9. */
  predicate AllDigits(g: Grid)
    requires IsGrid(g)
  {
    forall r, c :: 0 <= r < SIZE && 0 <= c < SIZE ==> 1 <= g[r][c] <= 9
  }

  /** The digits 1-9. */
  function Digits(): set<int> {
    {1, 2, 3, 4, 5, 6, 7, 8, 9}
  }

  /** On a board of digits, every row, column and box of a completed board holds each digit 1-9 exactly once. */
  lemma CompleteUnitsArePermutations(g: Grid, i: int)
    requires IsGrid(g) && AllDigits(g) && IsComplete(g) && InRange(i)
    ensures ElemSet(RowOf(g, i)) == Digits()
    ensures ElemSet(ColOf(g, i)) == Digits()
    ensures ElemSet(BoxNo(g, i)) == Digits()
  {
    assert Distinct(RowOf(g, i)) && Distinct(ColOf(g, i)) && Distinct(BoxNo(g, i));
    RowIsPermutation(g, i);
    ColIsPermutation(g, i);
    BoxIsPermutation(g, i);
  }

  lemma RowIsPermutation(g: Grid, i: int)
    requires IsGrid(g) && AllDigits(g) && InRange(i) && Distinct(RowOf(g, i))
    ensures ElemSet(RowOf(g, i)) == Digits()
  {
    FullUnit(RowOf(g, i));
  }

  lemma ColIsPermutation(g: Grid, i: int)
    requires IsGrid(g) && AllDigits(g) && InRange(i) && Distinct(ColOf(g, i))
    ensures ElemSet(ColOf(g, i)) == Digits()
  {
    FullUnit(ColOf(g, i));
  }

  lemma BoxIsPermutation(g: Grid, i: int)
    requires IsGrid(g) && AllDigits(g) && InRange(i) && Distinct(BoxNo(g, i))
    ensures ElemSet(BoxNo(g, i)) == Digits()
  {
    BoxDigits(g, i);
    FullUnit(BoxNo(g, i));
  }

  lemma BoxDigits(g: Grid, i: int)
    requires IsGrid(g) && AllDigits(g) && InRange(i)
    ensures forall k :: 0 <= k < SIZE ==> 1 <= BoxNo(g, i)[k] <= 9
  {
    forall k | 0 <= k < SIZE ensures 1 <= BoxNo(g, i)[k] <= 9 {
      BoxSlotInBox((i / 3) * 3, (i % 3) * 3, k);
    }
  }

  lemma DigitsSize()
    ensures |Digits()| == 9
  {
  }

  /** Nine distinct digits are all nine digits. */
  lemma FullUnit(s: seq<int>)
    requires |s| == 9 && Distinct(s) && forall k :: 0 <= k < |s| ==> 1 <= s[k] <= 9
    ensures ElemSet(s) == Digits()
  {
    ElemSetSize(s);
    DigitsSize();
    DigitsCover(s);
    SameSizeSubset(ElemSet(s), Digits());
  }

  lemma DigitsCover(s: seq<int>)
    requires forall k :: 0 <= k < |s| ==> 1 <= s[k] <= 9
    ensures ElemSet(s) <= Digits()
  {
    forall x | x in ElemSet(s) ensures x in Digits() {
      var k :| 0 <= k < |s| && s[k] == x;
      InDigits(x);
    }
  }

  lemma InDigits(x: int)
    requires 1 <= x <= 9
    ensures x in Digits()
  {
    if x <= 3 {
      assert x == 1 || x == 2 || x == 3;
    } else if x <= 6 {
      assert x == 4 || x == 5 || x == 6;
    } else {
      assert x == 7 || x == 8 || x == 9;
    }
  }

  /** A subset as large as its superset is the superset. */
  lemma SameSizeSubset(a: set<int>, b: set<int>)
    requires a <= b && |a| == |b|
    ensures a == b
  {
    assert b * a == a;
    assert |b - a| == 0;
  }
}

=== FILE: statistics.dfy ===
/**
 * Completion statistics: one counter per difficulty, kept in a key-value
 * preference store. The store is modelled as a map from keys to `Int`
 * values; an absent key reads as 0.
 */
module Statistics {
  import opened SudokuModels

  const KEY_EASY_COMPLETED := "easy_completed"
  const KEY_MEDIUM_COMPLETED := "medium_completed"
  const KEY_HARD_COMPLETED := "hard_completed"

  /** The difficulties (numbers of blanks) that have a counter. */
  const EASY := 30
  const MEDIUM := 40
  const HARD := 50

  /** The preference store. */
  type Prefs = map<string, int>

  /** Every stored value is a Kotlin `Int`. */
  predicate ValidPrefs(p: Prefs) {
    forall k :: k in p ==> IsInt(p[k])
  }

  /** `getInt(key, 0)`. */
  function GetInt(p: Prefs, key: string): (v: int)
    requires ValidPrefs(p)
    ensures IsInt(v)
    ensures key in p ==> v == p[key]
    ensures key !in p ==> v == 0
  {
    if key in p then p[key] else 0
  }

  function GetEasyCompleted(p: Prefs): int
    requires ValidPrefs(p)
  {
    GetInt(p, KEY_EASY_COMPLETED)
  }

  function GetMediumCompleted(p: Prefs): int
    requires ValidPrefs(p)
  {
    GetInt(p, KEY_MEDIUM_COMPLETED)
  }

  function GetHardCompleted(p: Prefs): int
    requires ValidPrefs(p)
  {
    GetInt(p, KEY_HARD_COMPLETED)
  }

  /**
   * The sum of the three counters as two Kotlin `Int` additions; it is the
   * true sum reduced into the `Int` range.
   */
  function GetTotalCompleted(p: Prefs): (total: int)
    requires ValidPrefs(p)
    ensures IsInt(total)
    ensures (total - (GetEasyCompleted(p) + GetMediumCompleted(p) + GetHardCompleted(p))) % 0x1_0000_0000 == 0
    ensures IsInt(GetEasyCompleted(p) + GetMediumCompleted(p) + GetHardCompleted(p)) ==>
      total == GetEasyCompleted(p) + GetMediumCompleted(p) + GetHardCompleted(p)
  {
    var e, m, h := GetEasyCompleted(p), GetMediumCompleted(p), GetHardCompleted(p);
    WrapSum(e, m, h);
    WrapInt(WrapInt(e + m) + h)
  }

  /** Wrapping after each addition is wrapping once at the end. */
  lemma WrapSum(a: int, b: int, c: int)
    ensures WrapInt(WrapInt(a + b) + c) == WrapInt(a + b + c)
  {
    var ab := WrapInt(a + b);
    var k := (ab - (a + b)) / 0x1_0000_0000;
    assert ab + c == (a + b + c) + k * 0x1_0000_0000;
    WrapShift(a + b + c, k);
  }

  /** Shifting by whole multiples of 2^32 does not change the wrapped value. */
  lemma WrapShift(x: int, k: int)
    ensures WrapInt(x + k * 0x1_0000_0000) == WrapInt(x)
  {
    assert (x + k * 0x1_0000_0000 - INT_MIN) == (x - INT_MIN) + k * 0x1_0000_0000;
    ModShift(x - INT_MIN, k);
  }

  lemma {:induction false} ModShift(a: int, k: int)
    ensures (a + k * 0x1_0000_0000) % 0x1_0000_0000 == a % 0x1_0000_0000
    decreases if k < 0 then -k else k
  {
    if k > 0 {
      ModShift(a, k - 1);
      ModStep(a + (k - 1) * 0x1_0000_0000);
    } else if k < 0 {
      ModShift(a, k + 1);
      ModStep(a + k * 0x1_0000_0000);
    }
  }

  lemma ModStep(a: int)
    ensures (a + 0x1_0000_0000) % 0x1_0000_0000 == a % 0x1_0000_0000
  {
  }

  /** The counter a difficulty is recorded under; other difficulties have none. */
  function KeyFor(difficulty: int): (key: string)
    ensures key == "" <==> difficulty !in {EASY, MEDIUM, HARD}
  {
    if difficulty == EASY then KEY_EASY_COMPLETED
    else if difficulty == MEDIUM then KEY_MEDIUM_COMPLETED
    else if difficulty == HARD then KEY_HARD_COMPLETED
    else ""
  }

  /**
   * `recordCompletion(difficulty)`: the counter for 30, 40 or 50 blanks goes
   * up by one (a Kotlin `Int` increment, so `Int.MAX_VALUE` wraps to
   * `Int.MIN_VALUE`); any other difficulty leaves the store untouched.
   */
  function RecordCompletion(p: Prefs, difficulty: int): (p': Prefs)
    requires ValidPrefs(p)
    ensures ValidPrefs(p')
    ensures difficulty !in {EASY, MEDIUM, HARD} ==> p' == p
    ensures difficulty in {EASY, MEDIUM, HARD} ==>
      var key := KeyFor(difficulty);
      && key in p'
      && (GetInt(p, key) < INT_MAX ==> GetInt(p', key) == GetInt(p, key) + 1)
      && (GetInt(p, key) == INT_MAX ==> GetInt(p', key) == INT_MIN)
      && forall k :: k != key ==> (k in p' <==> k in p) && (k in p ==> p'[k] == p[k])
  {
    var key := KeyFor(difficulty);
    if key == "" then p
    else p[key := WrapInt(GetInt(p, key) + 1)]
  }

  /** `resetStatistics()`: the store is cleared. */
  function ResetStatistics(p: Prefs): (p': Prefs)
    ensures ValidPrefs(p')
    ensures GetEasyCompleted(p') == 0 && GetMediumCompleted(p') == 0 && GetHardCompleted(p') == 0
    ensures GetTotalCompleted(p') == 0
  {
    map[]
  }

  /** The snapshot returned by `getStatistics()`. */
  datatype Stats = Stats(easyCompleted: int, mediumCompleted: int, hardCompleted: int, totalCompleted: int)

  /** `getStatistics()`: the three counters and their total, read from one store. */
  function GetStatistics(p: Prefs): (s: Stats)
    requires ValidPrefs(p)
    ensures s.easyCompleted == GetInt(p, KEY_EASY_COMPLETED)
    ensures s.mediumCompleted == GetInt(p, KEY_MEDIUM_COMPLETED)
    ensures s.hardCompleted == GetInt(p, KEY_HARD_COMPLETED)
    ensures (s.totalCompleted - (s.easyCompleted + s.mediumCompleted + s.hardCompleted)) % 0x1_0000_0000 == 0
    ensures IsInt(s.easyCompleted + s.mediumCompleted + s.hardCompleted) ==>
      s.totalCompleted == s.easyCompleted + s.mediumCompleted + s.hardCompleted
    ensures IsInt(s.totalCompleted) && s.totalCompleted == GetTotalCompleted(p)
  {
    Stats(GetEasyCompleted(p), GetMediumCompleted(p), GetHardCompleted(p), GetTotalCompleted(p))
  }

  /** Counters never go below zero through recording and resetting. */
  predicate NonNegative(p: Prefs)
    requires ValidPrefs(p)
  {
    GetEasyCompleted(p) >= 0 && GetMediumCompleted(p) >= 0 && GetHardCompleted(p) >= 0
  }

  /**
   * Recording one completion of a tracked difficulty raises the total by one,
   * as long as neither the counter nor the total is at `Int.MAX_VALUE`.
   */
  lemma RecordRaisesTotal(p: Prefs, difficulty: int)
    requires ValidPrefs(p) && NonNegative(p)
    requires GetEasyCompleted(p) + GetMediumCompleted(p) + GetHardCompleted(p) < INT_MAX
    ensures difficulty in {EASY, MEDIUM, HARD} ==>
      GetTotalCompleted(RecordCompletion(p, difficulty)) == GetTotalCompleted(p) + 1
    ensures difficulty !in {EASY, MEDIUM, HARD} ==>
      GetTotalCompleted(RecordCompletion(p, difficulty)) == GetTotalCompleted(p)
    ensures NonNegative(RecordCompletion(p, difficulty))
  {
  }

  /** After a reset, one recorded completion shows up in exactly its own counter and in the total. */
  lemma RecordAfterReset(p: Prefs, difficulty: int)
    requires difficulty in {EASY, MEDIUM, HARD}
    ensures var s := GetStatistics(RecordCompletion(ResetStatistics(p), difficulty));
      && s.easyCompleted == (if difficulty == EASY then 1 else 0)
      && s.mediumCompleted == (if difficulty == MEDIUM then 1 else 0)
      && s.hardCompleted == (if difficulty == HARD then 1 else 0)
      && s.totalCompleted == 1
  {
  }

  /** Recording two completions gives the same store in either order, whatever the two difficulties. */
  lemma RecordCommutes(p: Prefs, d1: int, d2: int)
    requires ValidPrefs(p)
    ensures RecordCompletion(RecordCompletion(p, d1), d2) == RecordCompletion(RecordCompletion(p, d2), d1)
  {
  }
}

=== FILE: wrappers.dfy ===
/** Optional values, used where the source has a nullable result. */
module Wrappers {

  datatype Option<+T> = None | Some(value: T)
}
